=== FILE: README.md ===
# Exercise-tracking pose readings, modelled in Dafny

This project models the analysis core of a browser exercise demo. The demo runs
MediaPipe pose and hand detectors on a webcam stream. From
the normalised landmarks they return, it derives joint readings: ulnar and
radial deviation, pronation and supination, neck and lumbar flexion, extension
and rotation, and a combined wrist flexion/extension angle.

It also judges whether the user stands inside a guide rectangle and gives elbow
feedback. It counts squats, and runs small per-frame state machines for
starting, stopping and rescheduling the camera loop and for a one-shot welcome
toast.

The model covers the following:

- `Geometry`: points and vectors, the abstract trigonometry, and the two
  rounding modes. `Math.round(v * 100) / 100` becomes `Round2`, and
  `toFixed(2)` taken as a number becomes `Fixed2`.
- `JointAngles`: every `calculate*` helper of `src/helpers.js`, with the
  "neutral-zero" remaps.
- `LumbarRotation`: the lumbar rotation, as written and corrected (see
  Findings).
- `SkeletonColors`: the colour table, looked up by key position.
- `FrameGate`: the three in-frame rectangle checks.
- `HandResolver`: the upload tracker's hand-to-arm matching, the reading
  splits, the readout update and the face filters.
- `PoseReport`: the upload tracker's `calculateAngles` report, and the part of
  its frame that decides whether the report and the hand loop run.
- `Lifecycle`: the toggles, stream start and stop, and frame rescheduling of
  all the tracker components.
- `FrameOverlay`: the trackers' inside/overlay/colour decisions and the framed
  tracker's toast latch.
- `ElbowFeedback`: the elbow angle, feedback thresholds and per-pose loop of
  the pose and estimator components.
- `SquatCounter`: `countSquats` and the counter's frame step.
- `Keypoints`: keypoint selection and skeleton segments of the pose estimation
  component.

## Modelling decisions

**Trigonometry as parameters.** `Math.acos`, `Math.atan2` and `Math.sqrt`
(with the factor `180 / PI`) are fields of a `Trig` value. Every reading takes
one, and `Lawful(t)` states what the readings rely on:

- `acos` lies in [0, 180] on [-1, 1], and reaches its ends only at 1 and -1;
- `atan2` lies in (-180, 180];
- the square root is non-negative and squares back to its argument.

Everything the model proves holds for every such choice.

**Undefined landmarks become `None`.** A landmark index past the end of the
list is `undefined` in the source and `None` here (`At`). A guard such as
`if (!p0 || !p1 || !p2) return null` becomes an `Option` result.

**Throws become an outcome.** An unguarded property access on a missing
landmark throws, and the model records that as an outcome rather than a
precondition. `PoseReport.CalculateAngles` returns `Thrown`, and
`ElbowFeedback.GiveFeedback` returns `None`. A throw inside a frame also
skips that frame's closing `requestAnimationFrame`, so the loop ends there: the
frame functions of `Lifecycle` take a `threw` flag, and
`PoseReport.ShortPoseEndsUploadLoop` links the two.

**Non-degenerate triangles are a precondition.** The cosine rule divides by
`sqrt(4ab)`. Readings built on it require both rays out of the vertex to have
length. The code itself would produce `NaN` there.

**Hand ties go left.** A hand equally far from both pose wrists is matched to
the left arm (13/15), because the comparison is a strict `<` on |Δx|.

**Lumbar rotation is computed in degrees.** The source normalises in radians
and converts afterwards. A truncating remainder commutes with multiplication
by the positive factor 180/π, so the model normalises in degrees directly. The upload
tracker's report logs the value as the code computes it
(`LumbarRotationAsWritten`); `PoseReport.ReportRotationAgainstCorrected` relates
that value to the corrected reading.

## Model

| member | source | states |
|---|---|---|
| Geometry.RayAngle | src/helpers.js:116-130 | the direction of a ray `atan2(dy, dx)` in degrees lies in (-180, 180] |
| Geometry.CosineAtVertex | src/helpers.js:5-9 | the cosine-rule quotient `(a + b - c) / sqrt(4ab)` lies in [-1, 1] for every non-degenerate triangle, so `acos` is always defined on it |
| Geometry.VertexAngle | src/helpers.js:9 | the angle at `p0` lies in [0, 180] |
| Geometry.Magnitude | src/helpers.js:313-315 | the vector length is non-negative, squares to x² + y², and is zero exactly for the zero vector |
| Geometry.AngleBetween | src/helpers.js:311-318 | `angleBetweenVectors` returns 0 when either vector is zero; otherwise it lies strictly between 0 and 180 for non-parallel vectors, is 0 for same-direction vectors and 180 for opposite ones |
| Geometry.SignedAngle | src/helpers.js:321-326 | `signedAngle` has the unsigned angle as its absolute value; it is negative exactly when the cross product is negative and the unsigned angle positive; it is 0 for a zero vector and 180 for opposite vectors |
| Geometry.Round2 | src/helpers.js:12 | `Math.round(v*100)/100` is a whole number of hundredths within 0.005 of `v` (ties rounding up) |
| Geometry.Round2Within | src/helpers.js:12 | rounding keeps a value inside any interval whose ends are whole hundredths |
| Geometry.Round2Monotone | src/helpers.js:12 | rounding to hundredths is monotone |
| Geometry.Round2Zero | src/helpers.js:12 | a non-negative value rounds to 0 exactly when it is below 0.005 |
| Geometry.Fixed2 | src/helpers.js:416 | `toFixed(2)` read back as a number is within 0.005 of the value and never flips its sign |
| Geometry.Fixed2Within | src/helpers.js:453 | `toFixed(2)` keeps a value inside any interval whose ends are whole hundredths |
| JointAngles.RightAngleShortfall | src/helpers.js:10-12 | `round(max(0, 90 - θ))` lies in [0, 90] and is zero exactly when θ > 89.995 |
| JointAngles.StraightShortfall | src/helpers.js:190-192 | `round(max(0, 180 - θ))` lies in [0, 180] and is zero exactly when θ > 179.995 |
| JointAngles.BeyondVertical | src/helpers.js:127-129 | `round(max(0, abs(θ) - 90))` lies in [0, 90] and is zero exactly when abs(θ) < 90.005 |
| JointAngles.ShortOfVertical | src/helpers.js:143-145 | `round(max(0, 90 - abs(θ)))` lies in [0, 90] and is zero exactly when abs(θ) > 89.995 |
| JointAngles.VerticalSplit | src/helpers.js:116-146 | of the two vertical remaps at most one is non-zero, and both are zero exactly when 89.995 < abs(θ) < 90.005 |
| JointAngles.RightAngleShortfallAntitone | src/helpers.js:10-12 | a wider vertex angle never gives a larger right-angle reading |
| JointAngles.UlnarDeviation | src/helpers.js:1-13 | null exactly when a landmark is missing; otherwise in [0, 90], and zero exactly when the angle at `p0` exceeds 89.995 |
| JointAngles.RadialDeviation | src/helpers.js:15-20 | radial deviation equals ulnar deviation on every input |
| JointAngles.Pronation | src/helpers.js:22-34 | null exactly when a landmark is missing; otherwise in [0, 90], and zero exactly when the angle at `p0` exceeds 89.995 |
| JointAngles.Supination | src/helpers.js:36-41 | supination equals pronation on every input |
| JointAngles.NeckRotation | src/helpers.js:84-98 | null exactly when a landmark is missing; otherwise in [0, 90], and zero exactly when the angle at the nose exceeds 89.995 |
| JointAngles.NeckLateralBending | src/helpers.js:100-114 | neck lateral bending equals neck rotation on every input |
| JointAngles.Calculate | src/helpers.js:300-308 | the private `calculate` agrees with ulnar deviation on the same three points |
| JointAngles.UlnarDeviationAntitone | src/helpers.js:1-13 | a wider angle at the wrist never gives a larger ulnar deviation |
| JointAngles.LumbarFlexion | src/helpers.js:180-193 | null exactly when a landmark is missing; otherwise in [0, 180], and zero exactly when the hip angle exceeds 179.995 |
| JointAngles.LumbarExtension | src/helpers.js:236-249 | `abs(180 - θ)` equals lumbar flexion `max(0, 180 - θ)` on every input |
| JointAngles.WristFlexion | src/helpers.js:116-130 | null exactly when a landmark is missing; otherwise in [0, 90], and zero exactly when the wrist→index ray is within 90.005° of horizontal-right |
| JointAngles.WristExtension | src/helpers.js:132-146 | null exactly when a landmark is missing; otherwise in [0, 90], and zero exactly when that ray is more than 89.995° from horizontal-right |
| JointAngles.WristFlexionExtensionExclusive | src/helpers.js:116-146 | wrist flexion and extension are never both non-zero |
| JointAngles.WristReadingsIgnoreElbow | src/helpers.js:116-146 | the elbow argument never changes wrist flexion or extension |
| JointAngles.NeckExtension | src/helpers.js:148-162 | null exactly when a landmark is missing; otherwise in [0, 90], zero exactly when the shoulder→ear ray is more than 89.995° from horizontal-right |
| JointAngles.NeckFlexion | src/helpers.js:164-178 | neck flexion is the wrist-flexion formula applied to (ear, shoulder, nose) |
| JointAngles.LumbarLateral | src/helpers.js:195-218 | null exactly when one of the four landmarks is missing; otherwise in [0, 90], zero exactly when the hip→nose ray is within 90.005° of horizontal-right |
| JointAngles.LumbarLateralIgnoresGuards | src/helpers.js:195-218 | the right hip and the left shoulder only gate the reading and never change its value |
| JointAngles.LumbarLateralFlexion | src/helpers.js:220-234 | null exactly when a landmark is missing; otherwise in [0, 90], zero exactly when the hip→nose ray is within 90.005° of horizontal-right |
| JointAngles.HorizontalAngle | src/helpers.js:338-347 | the signed angle from (1, 0) lies in (-180, 180]; it is negative exactly when the target is above the origin point, 0 exactly on the rightward horizontal, and 180 exactly on the leftward horizontal |
| JointAngles.UprightAngle | src/helpers.js:436-446 | the signed angle from (0, -1) lies in (-180, 180]; it is negative exactly when the target is left of the origin point, 0 exactly straight up, and 180 exactly straight down |
| JointAngles.Clamp | src/helpers.js:350-351 | the clamp lands in [lo, hi], keeps values already inside, and sends values above or below to the nearer end |
| JointAngles.CombinedWristAngle | src/helpers.js:329-354 | the combined wrist angle lies in [-60, 60]; it is negative exactly when the index tip is above the pose wrist; it is 0 exactly on the rightward horizontal, and the leftward horizontal reads +60 |
| JointAngles.CombinedWristAngleIgnoresElbow | src/helpers.js:329-354 | the pose elbow argument never changes the combined wrist angle |
| JointAngles.RadialUlnar | src/helpers.js:395-417 | null exactly when an argument is missing; otherwise within 0.005 of the signed angle from horizontal, in [-180, 180] |
| JointAngles.RadialUlnarSide | src/helpers.js:400-416 | rounding never flips the side: a negative reading means the fingertip is above the wrist, a positive one that it is not |
| JointAngles.ProSup | src/helpers.js:430-454 | null exactly when an argument is missing; otherwise within 0.005 of the signed angle from vertical minus 20, in [-200, 160] |
| JointAngles.ProSupSide | src/helpers.js:435-453 | a thumb left of the wrist reads at most -20 and one right of it at least -20 |
| LumbarRotation.Trunc | src/helpers.js:74 | truncation towards zero stays within one unit of the value, on the same side of zero |
| LumbarRotation.TruncRem360 | src/helpers.js:74 | JavaScript's `%` by a full turn takes the sign of the dividend and differs from it by whole turns |
| LumbarRotation.FloorRem360 | src/helpers.js:74 | a floored remainder lies in [0, 360) and differs from its argument by whole turns |
| LumbarRotation.FloorNormalize | src/helpers.js:74 | the intended normalisation lands in [-180, 180) and changes the angle by whole turns |
| LumbarRotation.TruncNormalizeOnDifferences | src/helpers.js:70-77 | on a difference of two directions, the code's normalisation agrees with the intended one exactly when the difference is at least -180, and leaves smaller differences untouched |
| LumbarRotation.TruncNormalizeEscapes | src/helpers.js:74 | a difference of -340 stays -340 where the intended normalisation gives 20 |
| LumbarRotation.ShoulderSpread | src/helpers.js:51-72 | the raw difference of the two shoulder directions seen from the mid-hip lies strictly within one turn |
| LumbarRotation.LumbarRotationAsWritten | src/helpers.js:43-82 | null exactly when one of the four landmarks is missing; otherwise in (-360, 180), and below -180 exactly when the raw difference is |
| LumbarRotation.LumbarRotation | src/helpers.js:43-82 | null exactly when a landmark is missing; otherwise in [-180, 180), differing from the raw difference by whole turns |
| LumbarRotation.LumbarRotationAgreement | src/helpers.js:70-77 | the corrected reading equals the code's whenever the raw difference is at least -180, and is one turn above it otherwise |
| LumbarRotation.FloorNormalizeShift | src/helpers.js:74 | a difference between -360 and -180 normalises to itself plus one turn |
| LumbarRotation.LumbarRotationReadsMidHip | src/helpers.js:55-58 | the hips enter only through their midpoint |
| SkeletonColors.Color | src/helpers.js:251-298 | no key of `skeletonColors` is mapped to white |
| SkeletonColors.ColorAt | src/PoseTrackers.js:101-103 | the colour of landmark `index` is the colour of the `index`-th key, and it is white exactly when `index` is past the 46 keys |
| SkeletonColors.PoseLandmarksAreColoured | src/PoseTrackers.js:101-103 | every one of the 33 pose landmarks gets a colour that is not white |
| SkeletonColors.ColourIsPositional | src/PoseTrackers.js:101-103 | the lookup is by key position, not by landmark meaning: pose landmark 11 (left shoulder) gets the colour of the key `right_hip` |
| FrameGate.WithinScaled | src/PoseTrackerWithUpload.js:419-427 | the scaled gate holds exactly when every landmark lies strictly inside the region after scaling by 1280 × 720; an empty list passes |
| FrameGate.TrackerRegionBounds | src/PoseTrackers.js:23-26 | the trackers' region is 300 < 1280x < 980 and 20 < 720y < 680 |
| FrameGate.ToastRegionBounds | src/PoseFrame.js:21-24 | the framed tracker's region is 500 < 1280x < 980 and 20 < 720y < 680 |
| FrameGate.WithinScaledSubset | src/PoseTrackers.js:225-233 | any sub-collection of an accepted landmark list is accepted |
| FrameGate.WithinScaledRemove | src/PoseTrackerWithUpload.js:419-427 | removing a landmark never turns acceptance into rejection |
| FrameGate.ToastRegionInsideTrackerRegion | src/PoseFrame.js:77-85 | a pose accepted by the framed tracker is accepted by the trackers |
| FrameGate.WithinUnscaled | src/Pose.js:91-108 | the pose component's gate as written holds exactly when every raw coordinate satisfies 300 ≤ x ≤ 980 and 100 ≤ y ≤ 620 |
| FrameGate.UnscaledRejectsEveryPose | src/Pose.js:91-108 | that gate rejects every non-empty pose of normalised coordinates |
| FrameGate.WithinScaledInclusive | src/Pose.js:91-108 | the corrected gate holds exactly when every landmark, scaled by 1280 × 720, lies in [300, 980] × [100, 620] |
| FrameGate.ScaledInclusiveAcceptsCentredPose | src/Pose.js:91-108 | a pose in the middle of the picture passes the corrected gate and fails the one as written |
| HandResolver.ResolveSide | src/PoseTrackerWithUpload.js:554-568 | a hand is matched right only when strictly closer in x to pose landmark 16 than to 15, and left otherwise |
| HandResolver.ResolveSideSwap | src/PoseTrackerWithUpload.js:554-568 | exchanging the two pose wrists exchanges the side except on a tie, which is left both ways |
| HandResolver.ResolveSideReadsOnlyX | src/PoseTrackerWithUpload.js:554-568 | y and z are never consulted |
| HandResolver.ResolveSideExample | src/PoseTrackerWithUpload.js:554-568 | with wrists at x = 0.2 and 0.8, a hand at 0.79 goes right |
| HandResolver.SplitSigned | src/PoseTrackerWithUpload.js:578-579 | both halves are non-negative, at most one is non-zero, and their difference is the reading |
| HandResolver.SplitUnique | src/PoseTrackerWithUpload.js:578-579 | the split is the only pair with those three properties |
| HandResolver.SplitOfCombinedAngle | src/PoseTrackerWithUpload.js:578-580 | a combined angle splits into flexion and extension in [0, 60] |
| HandResolver.SplitReading | src/PoseTrackerWithUpload.js:587-590 | a missing reading splits into two zeros; a present one splits as a signed value |
| HandResolver.ProcessHand | src/PoseTrackerWithUpload.js:552-597 | one reading per hand: its index and side; flexion minus extension is the combined angle of the matched arm, each at most 60; radial/ulnar and pronation/supination are split from readings against pose landmark 16 |
| HandResolver.WristReadingsUseRightWrist | src/PoseTrackerWithUpload.js:581-593 | landmarks 13 and 15 never change radial/ulnar or pronation/supination, whichever arm the hand was matched to |
| HandResolver.ShowHand | src/PoseTrackerWithUpload.js:581-597 | after a hand is shown, whatever the readouts held before: radial minus ulnar is its radial/ulnar reading (both 0 when the middle fingertip is missing), pronation minus supination is its pronation/supination reading, the combined line is the matched arm's combined wrist angle, every readout is non-negative and of each pair at most one is non-zero |
| HandResolver.HandFrame | src/PoseTrackerWithUpload.js:457-461 | nothing changes unless a pose and a hand were detected; then there is one reading per hand in order, the k-th being that hand's processing against the first pose, with its index and the side of the nearer pose wrist, and the readouts show the last hand |
| HandResolver.HandFrameReadouts | src/PoseTrackerWithUpload.js:457-461 | after a frame with a pose and hands, whatever the readouts held before, radial minus ulnar, pronation minus supination and the combined line are the last hand's readings |
| HandResolver.DropFace | src/PoseTrackerWithUpload.js:482-484 | the filtered landmarks are exactly those from index 11 on, in order |
| HandResolver.KeepOffFace | src/PoseTrackerWithUpload.js:508-510 | a connection is kept exactly when both ends are above 10 |
| HandResolver.KeepOffFaceAppend | src/PoseTrackerWithUpload.js:508-510 | the connection filter keeps order: it commutes with concatenation |
| HandResolver.KeepOffFaceIdempotent | src/PoseTrackerWithUpload.js:508-510 | filtering twice is filtering once |
| PoseReport.NeckDirection | src/PoseTrackerWithUpload.js:250-255 | Left exactly when the nose is left of the left shoulder; Right exactly when it is not, but right of the right shoulder; Center exactly when it lies between them |
| PoseReport.NeckDirectionNeverCentredWhenCrossed | src/PoseTrackerWithUpload.js:250-255 | with the left shoulder right of the right shoulder, no nose position reads Center |
| PoseReport.NeckDirectionMirror | src/PoseTrackerWithUpload.js:250-255 | mirroring the picture swaps Left and Right and keeps Center, off the boundary |
| PoseReport.CalculateAngles | src/PoseTrackerWithUpload.js:145-353 | nothing happens without landmarks or a context; the call throws exactly when the pose has fewer than 25 landmarks; otherwise every reading is present except the two that need landmark 25, and the lumbar rotation is the one the code computes, truncating remainder included |
| PoseReport.ReportPairs | src/PoseTrackerWithUpload.js:184-311 | in a computed report radial equals ulnar, supination equals pronation, neck lateral bending equals neck rotation, lumbar extension equals lumbar flexion, and at most one of wrist flexion and extension is non-zero |
| PoseReport.ReportRanges | src/PoseTrackerWithUpload.js:172-352 | every computed reading lies in its range; the logged lumbar rotation lies in (-360, 180), not the intended [-180, 180) |
| PoseReport.ReportRotationAgainstCorrected | src/PoseTrackerWithUpload.js:335-342 | the logged lumbar rotation equals the corrected reading whenever it is at least -180, and is one turn below it otherwise |
| PoseReport.ReportReadsOnly | src/PoseTrackerWithUpload.js:147-161 | the report depends only on landmarks 0, 7, 11, 12, 14, 16, 18, 19, 21, 23, 24 and 25; in particular 13 and 15 are never read |
| PoseReport.FullPoseIsComputed | src/PoseTrackerWithUpload.js:146-169 | a full pose of 33 landmarks whose measured triangles are non-degenerate never throws and yields every reading, lumbar flexion included |
| PoseReport.UploadFrame | src/PoseTrackerWithUpload.js:457-627 | the report is computed exactly when a pose and a hand were detected, and it throws exactly when the first pose has fewer than 25 landmarks; without a pose or a hand the readouts stay as they were |
| PoseReport.ShortPoseEndsUploadLoop | src/PoseTrackerWithUpload.js:627-651 | with a hand detected and a first pose of 17 to 24 landmarks, the angle computation throws on the missing hip, so no next frame is requested and the session is left as it was |
| Lifecycle.Toggle | src/PoseTrackerWithUpload.js:410-416 | the toggle flips `running` exactly when the detector has loaded, and changes nothing else |
| Lifecycle.ToggleTwice | src/PoseTrackers.js:51-57 | toggling twice restores the session |
| Lifecycle.GuardedToggle | src/Pose.js:32-44 | the toggle flips `running` exactly when the detector has loaded and `getUserMedia` exists |
| Lifecycle.GuardedToggleWithMedia | src/PoseEstimator.js:32-44 | with media available the guarded toggle is the plain one; without it, a no-op |
| Lifecycle.SquatToggle | src/SquatCounter.js:46-62 | before loading nothing happens; when running, the flag is cleared and the tracks are stopped only if a stream is attached, with no frame cancelled; otherwise the flag is set |
| Lifecycle.Start | src/PoseTrackerWithUpload.js:657-665 | starting attaches the stream and changes nothing else |
| Lifecycle.Stop | src/PoseTrackerWithUpload.js:684-701 | with a stream: stop the tracks, detach it, cancel exactly the stored handle and clear it; without one, nothing happens |
| Lifecycle.StopIdempotent | src/PoseTrackers.js:204-220 | a second stop does nothing |
| Lifecycle.StopWithoutStreamKeepsHandle | src/PoseTrackerWithUpload.js:684-701 | without a stream, a stored handle is neither cancelled nor cleared |
| Lifecycle.StartStopEffect | src/PoseTrackerWithUpload.js:680-703 | the effect starts when running and stops otherwise, so the stream is attached exactly while running |
| Lifecycle.StartOnlyEffect | src/PoseFrame.js:70-74 | turning off runs no stop branch: the tracks keep running and nothing is cancelled |
| Lifecycle.SquatStopDiffersFromStop | src/SquatCounter.js:52-56 | the squat counter's stop leaves the stream attached and the pending frame alive, where the trackers' stop detaches and cancels |
| Lifecycle.StoredFrame | src/PoseTrackerWithUpload.js:438-651 | a video without size cancels exactly the stored handle, clears it and requests nothing; a sized frame whose processing throws requests nothing and leaves the session as it was; otherwise a frame is requested exactly while running, and its handle is stored |
| Lifecycle.UnstoredFrame | src/Pose.js:144-188 | a frame is requested exactly while running and the frame body did not throw, and the session is unchanged |
| Lifecycle.RunFrames | src/PoseTrackers.js:71-78 | a run of frames changes only the handle; a stopped loop requests nothing and never acquires a handle; a running loop of sized frames requests once per frame |
| Lifecycle.StoppedLoopStaysQuiet | src/PoseTrackerWithUpload.js:649-651 | after a running tracker is toggled off and its effect has run, later frames request nothing and leave no handle |
| Lifecycle.StoppedLoopOnlyClears | src/PoseTrackers.js:168-170 | a stopped loop's handle is only ever cleared, never replaced |
| FrameOverlay.UserInside | src/PoseTrackers.js:86-90 | the user is inside exactly when a pose was detected and every landmark of the first pose passes the gate |
| FrameOverlay.EmptyPoseIsInside | src/PoseTrackers.js:86-90 | a detected pose with no landmarks counts as inside; no pose counts as outside |
| FrameOverlay.NextInsideFrame | src/PoseTrackers.js:144 | `insideFrame` takes the frame's verdict when a pose was detected and keeps its value otherwise |
| FrameOverlay.LandmarkColours | src/PoseTrackers.js:101-107 | one colour per landmark; white exactly past the 46th; otherwise the colour of the key at that position |
| FrameOverlay.PoseColoursNeverWhite | src/PoseTrackers.js:101-107 | a pose of at most 33 landmarks has no white landmark |
| FrameOverlay.TrackerFrame | src/PoseTrackers.js:86-166 | the overlay is drawn exactly when the user is not inside; without a pose nothing is coloured and `insideFrame` keeps its value |
| FrameOverlay.TrackerFrameReadsFirstPose | src/PoseTrackers.js:88-90 | poses after the first never change the frame |
| FrameOverlay.ToastFrame | src/PoseFrame.js:117-176 | the toast fires exactly when the user is inside now, was not before, and no toast has fired; firing latches `toastActive`; the skeleton is green exactly when inside; the overlay is drawn exactly when not inside |
| FrameOverlay.RunToast | src/PoseFrame.js:131-136 | over any run of frames the toast fires at most once, and never after it has fired |
| FrameOverlay.ToastFiresOnce | src/PoseFrame.js:96-107 | stepping in fires the toast; stepping out and back in does not fire it again |
| FrameOverlay.RunToastAsWritten | src/PoseFrame.js:57-63 | with the latch frozen at its initial state, as the loop started from `loadeddata` reads it, it never fires more than once per frame, a run of frames all inside fires once per frame and a run all outside fires none |
| FrameOverlay.StaleToastRefires | src/PoseFrame.js:126-136 | stepping in, out and in again fires the toast twice with the frozen latch and once with the latched one |
| ElbowFeedback.JointAngle | src/Pose.js:66-72 | the elbow angle lies in [0, 360) |
| ElbowFeedback.JointAngleSymmetric | src/PoseEstimator.js:66-72 | exchanging the outer points leaves the angle unchanged |
| ElbowFeedback.JointAngleOfOneRay | src/PoseEstimation.js:30-36 | the same point on both sides gives angle 0 |
| ElbowFeedback.Message | src/Pose.js:83-86 | the message is empty exactly for no comment |
| ElbowFeedback.Classify | src/Pose.js:82-88 | "overextended" exactly above 160, "too bent" exactly below 40, nothing in between |
| ElbowFeedback.ClassifyMonotone | src/PoseEstimator.js:82-87 | a wider angle never moves the verdict towards "too bent" |
| ElbowFeedback.GiveFeedback | src/PoseEstimator.js:74-90 | feedback exists exactly when landmarks 11, 13 and 15 exist, and it is the classification of their angle |
| ElbowFeedback.GiveFeedbackReadsLeftArm | src/Pose.js:74-89 | only landmarks 11, 13 and 15 matter |
| ElbowFeedback.FeedbackLoop | src/Pose.js:144-181 | every detected pose, in order, gets its feedback and (in the pose component) the warning of the unscaled `isWithinFrame`, which every normalised pose triggers; a pose whose feedback throws keeps its warning and ends the frame |
| SquatCounter.CountSquats | src/SquatCounter.js:116-131 | the count grows by exactly one when landmarks 23-26 exist and the mean hip y exceeds the mean knee y, and is unchanged otherwise |
| SquatCounter.HipsBelowKneesBySums | src/SquatCounter.js:124-126 | comparing the means is comparing the sums |
| SquatCounter.SquatFrame | src/SquatCounter.js:77-104 | a frame is requested exactly while running; `isUserInFrame` follows whether a landmark list came back; the count never drops and grows by at most one |
| SquatCounter.EmptyDetectionIsInFrame | src/SquatCounter.js:84-100 | an empty landmark list reads as in frame and counts nothing |
| SquatCounter.RunSquats | src/SquatCounter.js:116-131 | over a run of frames the count never decreases and grows by at most one per frame |
| SquatCounter.HeldSquatCountsEveryFrame | src/SquatCounter.js:116-131 | no hysteresis: holding the squat for n frames counts n squats |
| SquatCounter.StandingKeepsCount | src/SquatCounter.js:116-131 | frames without a squat leave the count where it was |
| Keypoints.ConfidentOnes | src/PoseEstimation.js:3-14 | exactly the keypoints with score strictly above 0.5 are kept |
| Keypoints.ConfidentOnesSnoc | src/PoseEstimation.js:5-12 | extending the list by one keypoint extends the selection by it exactly when it is confident |
| Keypoints.SelectKeypoints | src/PoseEstimation.js:3-14 | nothing is drawn without a context; otherwise the drawn keypoints are the confident ones, in order |
| Keypoints.SkeletonSegments | src/PoseEstimation.js:16-28 | the segments join keypoint i to i + 1 for every i below length - 1; none without a context or with fewer than two keypoints |

## Left out

- Detector and model loading, camera streams (`getUserMedia`, tracks,
  `srcObject`, the `loadeddata` listener) and every canvas call. They are
  foreign calls or rendering. Detection results are inputs, and an attached
  stream is a flag.
- Floating point. Reals stand for JavaScript numbers: no rounding error, no
  `NaN`, no infinities. A degenerate triangle, which would give `NaN` in the
  cosine rule, is excluded by precondition.
- `toFixed(1)` display strings and string interpolation of the readings.
  `toFixed(2)` is modelled as the number it prints (`Fixed2`).
- React state timing. The model reads the latest `webcamRunning`,
  `insideFrame` and `toastActive`. The source's frame callbacks capture these
  values when the loop starts (stale closures), and the model does not follow
  them, except for the framed tracker's toast (see Findings).
- The toast's 3-second auto-hide timer, which is a `setTimeout`. `visible` is
  only ever set in the model.
- The `if (!video) return` after `getUserMedia` in the trackers' `runStream`.
  The video element is taken as mounted.
- The upload tracker's photo path (`handleImageUpload`, `processImage`): its
  file input is commented out, so it cannot be reached. The report is modelled
  as the webcam frame computes it.
- `src/PoseTrackerWithHolistic.js`, `src/App.js` and `src/PoseDetector.js`.
  They only load detectors, draw or compose components.
- The commented-out code throughout, the broken `angleAtPivot` import of
  `src/PoseTrackers.js`, and the unreachable second `return` of
  `src/PoseFrame.js`.
- PoseReport.CalculateAngles: a landmark is missing only when its index is past
  the end of the list. The detector never returns holes inside a pose.
- PoseReport.UploadFrame: requires a first pose of more than 16 landmarks and
  hands of more than 8 once a pose was detected. The source reads
  pose landmark 16 and hand landmarks 0 and 8 without a guard and would throw
  on shorter lists; that throw is not modelled.
- HandResolver.HandFrame: once a pose was detected, the hand landmarks 0 and 8
  and the pose wrists 15 and 16 are read without a guard, so the model requires
  them. Their absence would
  throw in the source.

## Findings

| source | as written | input that shows it | evidently intended | confidence | as-written member | corrected member |
|---|---|---|---|---|---|---|
| src/helpers.js:74 | `((d + PI) % (2 PI)) - PI` with JavaScript's truncating `%` leaves any shoulder difference below -180° unnormalised, so lumbar rotation can read down to -360° | left shoulder ray at 170°, right at -170°: raw difference -340° is reported as -340° | a value in [-180°, 180°), here 20° | not executed | LumbarRotation.LumbarRotationAsWritten | LumbarRotation.LumbarRotation |
| src/Pose.js:91-108 | `isWithinFrame` compares normalised coordinates (0 to 1) with pixel bounds 300-980 and 100-620, so every pose reads as outside and the warning is always drawn | a pose whose landmarks all sit at (0.5, 0.5) | scale by the 1280 × 720 canvas, as the other trackers do, and keep the inclusive bounds | not executed | FrameGate.UnscaledRejectsEveryPose | FrameGate.ScaledInclusiveAcceptsCentredPose |
| src/PoseFrame.js:62 | the loop is started once from the `loadeddata` listener, so `detectFrame` keeps reading the `insideFrame` and `toastActive` of that render, both false, and the welcome toast is shown again on every frame the user is inside once the timer hides it | a user inside, then outside, then inside again: the toast fires twice | the toast fires once, the first time the user steps inside | not executed | FrameOverlay.RunToastAsWritten | FrameOverlay.RunToast |

=== FILE: elbow_feedback.dfy ===
/** Elbow feedback in the pose and estimator components: the angle at the
    left elbow between the shoulder and the wrist, read from two `atan2`
    directions, and a message when the arm is nearly straight or sharply
    bent. */
module ElbowFeedback {
  import opened Geometry
  import opened FrameGate

  /** `calculateAngle(p1, p2, p3)`: the absolute difference of the
      directions of `p2 -> p3` and `p2 -> p1`, in degrees. It is not folded
      into [0, 180], so a reflex angle reads as more than 180. */
  function JointAngle(t: Trig, p1: Landmark, p2: Landmark, p3: Landmark): (a: real)
    requires Lawful(t)
    ensures 0.0 <= a < 360.0
  {
    var d := RayAngle(t, p2, p3) - RayAngle(t, p2, p1);
    if d < 0.0 then -d else d
  }

  /** Exchanging the outer points leaves the angle unchanged. */
  lemma JointAngleSymmetric(t: Trig, p1: Landmark, p2: Landmark, p3: Landmark)
    requires Lawful(t)
    ensures JointAngle(t, p1, p2, p3) == JointAngle(t, p3, p2, p1)
  {
  }

  /** Two points on the same ray out of the vertex make a zero angle. */
  lemma JointAngleOfOneRay(t: Trig, p1: Landmark, p2: Landmark)
    requires Lawful(t)
    ensures JointAngle(t, p1, p2, p1) == 0.0
  {
  }

  /** The three outcomes of `giveFeedback`. */
  datatype Verdict = Overextended | TooBent | NoComment

  /** The message drawn for a verdict; no comment is the empty string. */
  function Message(v: Verdict): (m: string)
    ensures m == "" <==> v == NoComment
  {
    match v
    case Overextended => "Your elbow is overextended. Try to lower your arm slightly."
    case TooBent => "Your elbow is too bent. Try to straighten it a bit."
    case NoComment => ""
  }

  /** The thresholds: strictly above 160 degrees, strictly below 40. */
  function Classify(angle: real): (v: Verdict)
    ensures v == Overextended <==> angle > 160.0
    ensures v == TooBent <==> angle < 40.0
    ensures v == NoComment <==> 40.0 <= angle <= 160.0
  {
    if angle > 160.0 then Overextended
    else if angle < 40.0 then TooBent
    else NoComment
  }

  /** A wider angle never moves the verdict towards "too bent". */
  lemma ClassifyMonotone(a: real, b: real)
    requires a <= b
    ensures Classify(a) == Overextended ==> Classify(b) == Overextended
    ensures Classify(b) == TooBent ==> Classify(a) == TooBent
  {
  }

  /** The landmarks read: left shoulder, elbow and wrist. */
  const Shoulder := 11
  const Elbow := 13
  const Wrist := 15

  /** `giveFeedback(landmarks)`; `None` when one of the three landmarks is
      missing, where the property access on `undefined` throws. */
  function GiveFeedback(t: Trig, lms: seq<Landmark>): (v: Option<Verdict>)
    requires Lawful(t)
    ensures v.Some? <==> |lms| > Wrist
    ensures v.Some? ==> v.value == Classify(JointAngle(t, lms[Shoulder], lms[Elbow], lms[Wrist]))
  {
    if |lms| <= Wrist then None
    else Some(Classify(JointAngle(t, lms[Shoulder], lms[Elbow], lms[Wrist])))
  }

  /** Only landmarks 11, 13 and 15 matter. */
  lemma GiveFeedbackReadsLeftArm(t: Trig, a: seq<Landmark>, b: seq<Landmark>)
    requires Lawful(t)
    requires |a| > Wrist && |b| > Wrist
    requires a[Shoulder] == b[Shoulder] && a[Elbow] == b[Elbow] && a[Wrist] == b[Wrist]
    ensures GiveFeedback(t, a) == GiveFeedback(t, b)
  {
  }

  /** What is drawn for one pose: the out-of-frame warning (pose component
      only) and the feedback, `None` where `giveFeedback` throws. */
  datatype Notice = Notice(outside: bool, verdict: Option<Verdict>)

  /** The pose loop of the pose component (`checkFrame`) and of the
      estimator: every detected pose, in order, gets a notice. The warning is
      decided by the component's own `isWithinFrame`, which compares the
      normalised coordinates with pixel bounds unscaled, and it is drawn
      before the feedback; a pose whose feedback throws keeps its warning and
      ends the frame. */
  method FeedbackLoop(t: Trig, poses: Option<seq<seq<Landmark>>>, checkFrame: bool)
    returns (notices: seq<Notice>, completed: bool)
    requires Lawful(t)
    ensures poses.None? ==> notices == [] && completed
    ensures poses.Some? ==> |notices| <= |poses.value|
    ensures poses.Some? ==> forall i :: 0 <= i < |notices| ==>
      && notices[i].verdict == GiveFeedback(t, poses.value[i])
      && (notices[i].outside <==> checkFrame && !(forall j :: 0 <= j < |poses.value[i]| ==> InsideUnscaled(poses.value[i][j])))
    ensures poses.Some? ==> forall i :: 0 <= i < |notices| - 1 ==> notices[i].verdict.Some?
    ensures poses.Some? && completed ==> |notices| == |poses.value| && forall i :: 0 <= i < |notices| ==> notices[i].verdict.Some?
    ensures poses.Some? && !completed ==> |notices| > 0 && notices[|notices| - 1].verdict.None?
    ensures poses.Some? && checkFrame ==> forall i :: 0 <= i < |notices| && |poses.value[i]| > 0 && Normalised(poses.value[i][0]) ==> notices[i].outside
  {
    notices := [];
    completed := true;
    if poses.None? {
      return;
    }
    var ps := poses.value;
    var k := 0;
    while k < |ps|
      invariant 0 <= k <= |ps|
      invariant |notices| == k
      invariant forall i :: 0 <= i < k ==>
        && notices[i].verdict == GiveFeedback(t, ps[i]) && notices[i].verdict.Some?
        && (notices[i].outside <==> checkFrame && !(forall j :: 0 <= j < |ps[i]| ==> InsideUnscaled(ps[i][j])))
      invariant checkFrame ==> forall i :: 0 <= i < k && |ps[i]| > 0 && Normalised(ps[i][0]) ==> notices[i].outside
    {
      var outside := false;
      if checkFrame {
        var inside := WithinUnscaled(ps[k]);
        outside := !inside;
        if |ps[k]| > 0 && Normalised(ps[k][0]) {
          UnscaledRejectsEveryPose(ps[k]);
        }
      }
      var v := GiveFeedback(t, ps[k]);
      notices := notices + [Notice(outside, v)];
      if v.None? {
        completed := false;
        return;
      }
      k := k + 1;
    }
  }
}

=== FILE: frame_gate.dfy ===
/** The "is the user inside the frame" gates. Two components scale the
    normalised landmark coordinates to a 1280 x 720 canvas and test strict
    bounds against a rectangle; a third compares the coordinates as they come
    against inclusive pixel bounds. */
module FrameGate {
  import opened Geometry

  /** A rectangle given by its top-left corner and its size, in canvas pixels. */
  datatype Region = Region(left: real, top: real, width: real, height: real)

  /** `frameLeft = 300, frameTop = 20, frameWidth = 680, frameHeight = 660`. */
  const TrackerRegion := Region(300.0, 20.0, 680.0, 660.0)

  /** `frameLeft = 500, frameTop = 20, frameWidth = 480, frameHeight = 660`. */
  const ToastRegion := Region(500.0, 20.0, 480.0, 660.0)

  /** One landmark, scaled to the canvas, lies strictly inside the region. */
  predicate InsideScaled(g: Region, lm: Landmark)
  {
    && lm.x * 1280.0 > g.left
    && lm.x * 1280.0 < g.left + g.width
    && lm.y * 720.0 > g.top
    && lm.y * 720.0 < g.top + g.height
  }

  /** `isWithinFrame(landmarks)`: `landmarks.every(...)` over the scaled test. */
  function WithinScaled(g: Region, lms: seq<Landmark>): (inside: bool)
    ensures inside <==> forall i :: 0 <= i < |lms| ==> InsideScaled(g, lms[i])
  {
    if |lms| == 0 then true
    else
      var rest := WithinScaled(g, lms[1..]);
      assert forall i :: 1 <= i < |lms| ==> lms[i] == lms[1..][i - 1];
      InsideScaled(g, lms[0]) && rest
  }

  /** The tracker region in numbers: 300 < 1280 x < 980 and 20 < 720 y < 680. */
  lemma TrackerRegionBounds(lm: Landmark)
    ensures InsideScaled(TrackerRegion, lm)
        <==> 300.0 < lm.x * 1280.0 < 980.0 && 20.0 < lm.y * 720.0 < 680.0
  {
  }

  /** The toast region in numbers: 500 < 1280 x < 980 and 20 < 720 y < 680. */
  lemma ToastRegionBounds(lm: Landmark)
    ensures InsideScaled(ToastRegion, lm)
        <==> 500.0 < lm.x * 1280.0 < 980.0 && 20.0 < lm.y * 720.0 < 680.0
  {
  }

  /** Dropping landmarks, or reordering them, never turns "inside" into
      "outside": the gate only asks about the set of landmarks. */
  lemma {:induction false} WithinScaledSubset(g: Region, lms: seq<Landmark>, fewer: seq<Landmark>)
    requires forall lm :: lm in fewer ==> lm in lms
    requires WithinScaled(g, lms)
    ensures WithinScaled(g, fewer)
  {
    forall i | 0 <= i < |fewer|
      ensures InsideScaled(g, fewer[i])
    {
      assert fewer[i] in lms;
      var j :| 0 <= j < |lms| && lms[j] == fewer[i];
    }
  }

  /** Removing the landmark at position `k` keeps an inside pose inside. */
  lemma WithinScaledRemove(g: Region, lms: seq<Landmark>, k: nat)
    requires k < |lms|
    requires WithinScaled(g, lms)
    ensures WithinScaled(g, lms[..k] + lms[k + 1..])
  {
    var fewer := lms[..k] + lms[k + 1..];
    forall lm | lm in fewer
      ensures lm in lms
    {
      var i :| 0 <= i < |fewer| && fewer[i] == lm;
      if i < k {
        assert lms[i] == lm;
      } else {
        assert lms[i + 1] == lm;
      }
    }
    WithinScaledSubset(g, lms, fewer);
  }

  /** The toast region lies inside the tracker region, so a pose inside
      the former is inside the latter. */
  lemma ToastRegionInsideTrackerRegion(lms: seq<Landmark>)
    requires WithinScaled(ToastRegion, lms)
    ensures WithinScaled(TrackerRegion, lms)
  {
    assert forall i :: 0 <= i < |lms| ==> InsideScaled(ToastRegion, lms[i]);
  }

  // ---------------------------------------------------------------------
  // The unscaled, inclusive gate
  // ---------------------------------------------------------------------

  /** The bounds `300 <= x <= 980`, `100 <= y <= 620`, with the landmark's
      coordinates compared as they are. */
  predicate InsideUnscaled(lm: Landmark)
  {
    !(lm.x < 300.0 || lm.x > 980.0 || lm.y < 100.0 || lm.y > 620.0)
  }

  /** `isWithinFrame(landmarks)` with its `for ... of` loop: the first
      landmark out of bounds answers false. */
  method WithinUnscaled(lms: seq<Landmark>) returns (inside: bool)
    ensures inside <==> forall i :: 0 <= i < |lms| ==> InsideUnscaled(lms[i])
  {
    var k := 0;
    while k < |lms|
      invariant 0 <= k <= |lms|
      invariant forall i :: 0 <= i < k ==> InsideUnscaled(lms[i])
    {
      var lm := lms[k];
      if lm.x < 300.0 || lm.x > 980.0 || lm.y < 100.0 || lm.y > 620.0 {
        return false;
      }
      k := k + 1;
    }
    return true;
  }

  /** A detector landmark is normalised: both coordinates lie in [0, 1]. */
  predicate Normalised(lm: Landmark)
  {
    0.0 <= lm.x <= 1.0 && 0.0 <= lm.y <= 1.0
  }

  /** The bounds are canvas pixels but the coordinates are normalised, so
      any detected pose is reported outside the frame. A single landmark at
      the middle of the picture, (0.5, 0.5), shows it. */
  lemma UnscaledRejectsEveryPose(lms: seq<Landmark>)
    requires |lms| > 0 && Normalised(lms[0])
    ensures !(forall i :: 0 <= i < |lms| ==> InsideUnscaled(lms[i]))
  {
    assert !InsideUnscaled(lms[0]);
  }

  /** The evidently intended gate: the landmark scaled to the 1280 x 720
      canvas, inside the drawn rectangle (300, 100) to (980, 620), bounds included. */
  predicate InsideScaledInclusive(lm: Landmark)
  {
    && 300.0 <= lm.x * 1280.0 <= 980.0
    && 100.0 <= lm.y * 720.0 <= 620.0
  }

  function WithinScaledInclusive(lms: seq<Landmark>): (inside: bool)
    ensures inside <==> forall i :: 0 <= i < |lms| ==> InsideScaledInclusive(lms[i])
  {
    if |lms| == 0 then true
    else
      var rest := WithinScaledInclusive(lms[1..]);
      assert forall i :: 1 <= i < |lms| ==> lms[i] == lms[1..][i - 1];
      InsideScaledInclusive(lms[0]) && rest
  }

  /** With the scaling restored, a pose whose every landmark is near the
      middle of the picture is inside, where the code as written says outside. */
  lemma ScaledInclusiveAcceptsCentredPose(lms: seq<Landmark>)
    requires |lms| > 0
    requires forall i :: 0 <= i < |lms| ==> 0.25 <= lms[i].x <= 0.75 && 0.15 <= lms[i].y <= 0.85
    ensures WithinScaledInclusive(lms)
    ensures !(forall i :: 0 <= i < |lms| ==> InsideUnscaled(lms[i]))
  {
    assert Normalised(lms[0]);
    UnscaledRejectsEveryPose(lms);
  }
}

=== FILE: frame_overlay.dfy ===
/** What the trackers do with a detected pose each frame, besides drawing
    it: decide whether the user stands inside the guide rectangle, remember
    that decision, cover the canvas with the red-frame overlay when they do
    not, colour the landmarks, and (in the framed tracker) raise a welcome
    toast once. */
module FrameOverlay {
  import opened Geometry
  import opened FrameGate
  import opened SkeletonColors

  /** The first detected pose, if any. */
  function FirstPose(poses: seq<seq<Landmark>>): Option<seq<Landmark>>
  {
    if |poses| > 0 then Some(poses[0]) else None
  }

  /** `userInside`: false until a pose is detected, then the gate's verdict
      on the first pose. */
  function UserInside(g: Region, poses: seq<seq<Landmark>>): (inside: bool)
    ensures inside <==> |poses| > 0 && forall i :: 0 <= i < |poses[0]| ==> InsideScaled(g, poses[0][i])
  {
    |poses| > 0 && WithinScaled(g, poses[0])
  }

  /** A pose detected with no landmarks at all counts as inside: the gate
      is vacuously true. */
  lemma EmptyPoseIsInside(g: Region)
    ensures UserInside(g, [[]])
    ensures !UserInside(g, [])
  {
  }

  /** `insideFrame` after a frame: the frame's verdict when a pose was
      detected, otherwise what it was. */
  function NextInsideFrame(insideFrame: bool, poses: seq<seq<Landmark>>, userInside: bool): (r: bool)
    ensures |poses| > 0 ==> r == userInside
    ensures |poses| == 0 ==> r == insideFrame
  {
    if |poses| > 0 then userInside else insideFrame
  }

  // ---------------------------------------------------------------------
  // The trackers
  // ---------------------------------------------------------------------

  /** One processed frame of the trackers: the verdict, the remembered
      verdict, whether the overlay is drawn and the landmark colours. */
  datatype TrackerView = TrackerView(userInside: bool, insideFrame: bool, overlay: bool, colours: seq<Rgb>)

  /** Each landmark takes the colour of the key at its position in
      `skeletonColors`, or white past the last key. */
  function LandmarkColours(n: nat): (cs: seq<Rgb>)
    ensures |cs| == n
    ensures forall i :: 0 <= i < n ==> (cs[i] == White <==> i >= |Keys|)
    ensures forall i :: 0 <= i < n && i < |Keys| ==> cs[i] == Color(Keys[i])
  {
    seq(n, i requires 0 <= i => ColorAt(i))
  }

  /** A detector pose has 33 landmarks, fewer than the 46 keys, so none is
      drawn white. */
  lemma PoseColoursNeverWhite(n: nat)
    requires n <= 33
    ensures forall i :: 0 <= i < n ==> LandmarkColours(n)[i] != White
  {
  }

  /** The trackers' `detectFrame` after the size check. */
  function TrackerFrame(poses: seq<seq<Landmark>>, insideFrame: bool): (v: TrackerView)
    ensures v.userInside == UserInside(TrackerRegion, poses)
    ensures v.overlay <==> !v.userInside
    ensures |poses| == 0 ==> v.insideFrame == insideFrame && v.colours == [] && v.overlay
    ensures |poses| > 0 ==> v.insideFrame == v.userInside && |v.colours| == |poses[0]|
  {
    var inside := UserInside(TrackerRegion, poses);
    TrackerView(inside, NextInsideFrame(insideFrame, poses, inside), !inside,
                if |poses| > 0 then LandmarkColours(|poses[0]|) else [])
  }

  /** Only the first pose is judged: later poses never change the view. */
  lemma TrackerFrameReadsFirstPose(poses: seq<seq<Landmark>>, more: seq<seq<Landmark>>, insideFrame: bool)
    requires |poses| > 0
    ensures TrackerFrame(poses + more, insideFrame) == TrackerFrame(poses, insideFrame)
  {
    assert (poses + more)[0] == poses[0];
  }

  // ---------------------------------------------------------------------
  // The framed tracker's toast latch
  // ---------------------------------------------------------------------

  /** `insideFrame`, `toastActive` and the toast's `visible` flag. */
  datatype Latch = Latch(insideFrame: bool, toastActive: bool, visible: bool)

  const InitialLatch := Latch(false, false, false)

  datatype Paint = Green | Blue

  /** One processed frame of the framed tracker. */
  datatype ToastView = ToastView(latch: Latch, fired: bool, paint: Option<Paint>, overlay: bool)

  /** `detectFrame` of the framed tracker: the toast fires when the user is
      inside now, was not inside before, and no toast has fired yet
      (`showCustomToast` checks `toastActive` once more); firing makes the
      toast visible and sets `toastActive` for good. */
  function ToastFrame(l: Latch, poses: seq<seq<Landmark>>): (v: ToastView)
    ensures v.fired <==> UserInside(ToastRegion, poses) && !l.insideFrame && !l.toastActive
    ensures v.latch.toastActive <==> l.toastActive || v.fired
    ensures v.latch.visible <==> l.visible || v.fired
    ensures v.latch.insideFrame == NextInsideFrame(l.insideFrame, poses, UserInside(ToastRegion, poses))
    ensures v.paint.Some? <==> |poses| > 0
    ensures v.paint == Some(Green) <==> UserInside(ToastRegion, poses)
    ensures v.overlay <==> !UserInside(ToastRegion, poses)
  {
    var inside := UserInside(ToastRegion, poses);
    var fire := inside && !l.insideFrame && !l.toastActive;
    var paint := if |poses| == 0 then None else if inside then Some(Green) else Some(Blue);
    ToastView(Latch(NextInsideFrame(l.insideFrame, poses, inside), l.toastActive || fire, l.visible || fire),
              fire, paint, !inside)
  }

  /** The toasts fired over a run of frames, and the latch left behind. */
  datatype ToastRun = ToastRun(latch: Latch, fired: nat)

  function RunToast(l: Latch, frames: seq<seq<seq<Landmark>>>): (r: ToastRun)
    ensures r.fired <= 1
    ensures l.toastActive ==> r.fired == 0 && r.latch.toastActive
    ensures r.latch.toastActive <==> l.toastActive || r.fired == 1
    decreases |frames|
  {
    if |frames| == 0 then ToastRun(l, 0)
    else
      var v := ToastFrame(l, frames[0]);
      var rest := RunToast(v.latch, frames[1..]);
      ToastRun(rest.latch, rest.fired + (if v.fired then 1 else 0))
  }

  /** Entering the frame from the start fires the toast; walking out and
      back in does not fire it again. */
  lemma {:induction false} ToastFiresOnce(inside: seq<Landmark>, outside: seq<Landmark>)
    requires WithinScaled(ToastRegion, inside)
    requires !WithinScaled(ToastRegion, outside)
    ensures RunToast(InitialLatch, [[inside]]).fired == 1
    ensures RunToast(InitialLatch, [[inside], [outside], [inside]]).fired == 1
  {
    var l1 := ToastFrame(InitialLatch, [inside]).latch;
    assert l1.toastActive;
    var frames := [[inside], [outside], [inside]];
    assert frames[1..] == [[outside], [inside]];
    assert RunToast(l1, frames[1..]).fired == 0;
  }

  // ---------------------------------------------------------------------
  // The toast loop as the framed tracker runs it
  // ---------------------------------------------------------------------

  /** The framed tracker starts `detectFrame` once, from the `loadeddata`
      listener, so the loop keeps reading the `insideFrame` and
      `toastActive` of the render that started it, both false: every frame
      is judged against the initial latch. The toasts fired over a run of
      frames, read that way. */
  function RunToastAsWritten(frames: seq<seq<seq<Landmark>>>): (fired: nat)
    ensures fired <= |frames|
    ensures (forall i :: 0 <= i < |frames| ==> UserInside(ToastRegion, frames[i])) ==> fired == |frames|
    ensures (forall i :: 0 <= i < |frames| ==> !UserInside(ToastRegion, frames[i])) ==> fired == 0
    decreases |frames|
  {
    if |frames| == 0 then 0
    else
      var rest := RunToastAsWritten(frames[1..]);
      assert forall i :: 1 <= i < |frames| ==> frames[1..][i - 1] == frames[i];
      rest + (if ToastFrame(InitialLatch, frames[0]).fired then 1 else 0)
  }

  /** Read with the stale latch, the toast fires again on every frame the
      user is inside, where the latched loop fires it once. */
  lemma {:induction false} StaleToastRefires(inside: seq<Landmark>, outside: seq<Landmark>)
    requires WithinScaled(ToastRegion, inside)
    requires !WithinScaled(ToastRegion, outside)
    ensures RunToastAsWritten([[inside], [outside], [inside]]) == 2
    ensures RunToast(InitialLatch, [[inside], [outside], [inside]]).fired == 1
  {
    var frames := [[inside], [outside], [inside]];
    assert frames[1..] == [[outside], [inside]];
    assert frames[1..][1..] == [[inside]];
    assert RunToastAsWritten([[inside]]) == 1;
    assert RunToastAsWritten(frames[1..]) == 1;
    ToastFiresOnce(inside, outside);
  }
}

=== FILE: geometry.dfy ===
/** The geometric kernel under every joint reading: landmarks, the
    trigonometric primitives the readings are built from, the law-of-cosines
    angle at a vertex, the signed angle between two vectors, and the two
    decimal roundings used for display. */
module Geometry {

  datatype Option<+T> = None | Some(value: T)

  /** A normalised detector landmark. `z` is carried but never read. */
  datatype Landmark = Landmark(x: real, y: real, z: real)

  /** A plane vector, e.g. from a wrist to a fingertip. */
  datatype Vec = Vec(x: real, y: real)

  /** `lms[k]` as JavaScript reads it: undefined past the end. */
  function At(lms: seq<Landmark>, k: nat): Option<Landmark>
  {
    if k < |lms| then Some(lms[k]) else None
  }

  function Abs(v: real): real
  {
    if v < 0.0 then -v else v
  }

  /** `Math.max(0, v)` */
  function Max0(v: real): real
  {
    if v > 0.0 then v else 0.0
  }

  function Sq(v: real): real
  {
    v * v
  }

  // ---------------------------------------------------------------------
  // Trigonometric primitives
  // ---------------------------------------------------------------------

  /** `Math.acos` and `Math.atan2` already multiplied by 180/PI, and
      `Math.sqrt`. They are parameters of the model: `Lawful` states the
      facts about them the readings rely on. */
  datatype Trig = Trig(acosDeg: real -> real, atan2Deg: (real, real) -> real, sqrt: real -> real)

  ghost predicate Lawful(t: Trig)
  {
    && (forall x :: -1.0 <= x <= 1.0 ==> 0.0 <= t.acosDeg(x) <= 180.0)
    && (forall x :: -1.0 <= x <= 1.0 ==> (t.acosDeg(x) == 0.0 <==> x == 1.0))
    && (forall x :: -1.0 <= x <= 1.0 ==> (t.acosDeg(x) == 180.0 <==> x == -1.0))
    && (forall y, x :: -180.0 < t.atan2Deg(y, x) <= 180.0)
    && (forall x :: 0.0 <= x ==> 0.0 <= t.sqrt(x) && Sq(t.sqrt(x)) == x)
  }

  /** Direction of the ray `from -> to` in degrees, in (-180, 180]. */
  function RayAngle(t: Trig, from: Landmark, to: Landmark): (theta: real)
    requires Lawful(t)
    ensures -180.0 < theta <= 180.0
  {
    t.atan2Deg(to.y - from.y, to.x - from.x)
  }

  // ---------------------------------------------------------------------
  // Small facts of real arithmetic used by the angle proofs
  // ---------------------------------------------------------------------

  lemma ProductSign(p: real, q: real)
    requires 0.0 < p && 0.0 < q
    ensures 0.0 < p * q
  {
  }

  lemma SquarePositive(v: real)
    requires v != 0.0
    ensures 0.0 < Sq(v)
  {
    if v > 0.0 {
      calc { Sq(v); == v * v; > 0.0; }
    } else {
      calc { Sq(v); == (-v) * (-v); > 0.0; }
    }
  }

  lemma SquareNonNegative(v: real)
    ensures 0.0 <= Sq(v)
  {
    if v != 0.0 {
      SquarePositive(v);
    }
  }

  /** A sum of two squares vanishes only when both terms do. */
  lemma SumOfSquaresZero(x: real, y: real)
    ensures 0.0 <= Sq(x) + Sq(y)
    ensures Sq(x) + Sq(y) == 0.0 <==> x == 0.0 && y == 0.0
  {
    SquareNonNegative(x);
    SquareNonNegative(y);
    if x != 0.0 {
      SquarePositive(x);
    }
    if y != 0.0 {
      SquarePositive(y);
    }
    assert Sq(0.0) == 0.0;
  }

  /** Comparing squares compares magnitudes. */
  lemma AbsBoundFromSquares(n: real, s: real)
    requires 0.0 <= s
    ensures Sq(n) <= Sq(s) ==> -s <= n <= s
    ensures Sq(n) < Sq(s) ==> -s < n < s
    ensures Sq(n) == Sq(s) ==> n == s || n == -s
  {
    if n > s {
      var p, q := n - s, n + s;
      ProductSign(p, q);
      calc { Sq(n) - Sq(s); == p * q; > 0.0; }
    } else if n < -s {
      var p, q := s - n, -(n + s);
      ProductSign(p, q);
      calc { Sq(n) - Sq(s); == p * q; > 0.0; }
    } else if n != s && n != -s {
      var p, q := s - n, n + s;
      ProductSign(p, q);
      calc { Sq(s) - Sq(n); == p * q; > 0.0; }
    }
  }

  lemma UnitRatio(n: real, s: real)
    requires 0.0 < s
    ensures -s <= n <= s ==> -1.0 <= n / s <= 1.0
    ensures -s < n < s ==> -1.0 < n / s < 1.0
    ensures n == s ==> n / s == 1.0
    ensures n == -s ==> n / s == -1.0
  {
    var q := n / s;
    assert q * s == n;
    if q > 1.0 {
      var a := q - 1.0;
      ProductSign(a, s);
      assert a * s == n - s;
    }
    if q < -1.0 {
      var a := -1.0 - q;
      ProductSign(a, s);
      assert a * s == -s - n;
    }
  }

  /** The square root of `x` is zero exactly when `x` is. */
  lemma SqrtFacts(t: Trig, x: real)
    requires Lawful(t)
    requires 0.0 <= x
    ensures 0.0 <= t.sqrt(x) && Sq(t.sqrt(x)) == x
    ensures t.sqrt(x) == 0.0 <==> x == 0.0
  {
    var s := t.sqrt(x);
    if s != 0.0 {
      SquarePositive(s);
    }
    assert Sq(0.0) == 0.0;
  }

  lemma SqrtOfPositive(t: Trig, v: real)
    requires Lawful(t)
    requires 0.0 < v
    ensures 0.0 < t.sqrt(v)
    ensures Sq(t.sqrt(v)) == v
  {
    SqrtFacts(t, v);
  }

  /** Squaring distributes over a product. */
  lemma SquareOfProduct(a: real, b: real)
    ensures Sq(a * b) == Sq(a) * Sq(b)
  {
  }

  // ---------------------------------------------------------------------
  // The angle at a vertex by the law of cosines
  // ---------------------------------------------------------------------

  /** Squared distance, `Math.pow(p.x - q.x, 2) + Math.pow(p.y - q.y, 2)`. */
  function SquaredDistance(p: Landmark, q: Landmark): real
  {
    Sq(p.x - q.x) + Sq(p.y - q.y)
  }

  /** Neither ray out of the vertex `p0` has zero length. */
  predicate Triangle(p0: Landmark, p1: Landmark, p2: Landmark)
  {
    SquaredDistance(p1, p0) > 0.0 && SquaredDistance(p2, p0) > 0.0
  }

  /** The cosine-rule numerator is twice the dot product of the two rays,
      and its square falls short of `4ab` by four squared cross products. */
  lemma CosineRuleAlgebra(ux: real, uy: real, vx: real, vy: real)
    ensures var a := Sq(ux) + Sq(uy);
      var b := Sq(vx) + Sq(vy);
      var c := Sq(ux - vx) + Sq(uy - vy);
      4.0 * a * b == Sq(a + b - c) + 4.0 * Sq(ux * vy - uy * vx)
  {
    var a := ux * ux + uy * uy;
    var b := vx * vx + vy * vy;
    var d := ux * vx + uy * vy;
    var x := ux * vy - uy * vx;
    assert (ux - vx) * (ux - vx) == ux * ux - 2.0 * ux * vx + vx * vx;
    assert (uy - vy) * (uy - vy) == uy * uy - 2.0 * uy * vy + vy * vy;
    assert a * b == d * d + x * x;
  }

  /** The cosine rule identity stated on three landmarks. */
  lemma CosineRule(p0: Landmark, p1: Landmark, p2: Landmark)
    ensures var a := SquaredDistance(p1, p0);
      var b := SquaredDistance(p2, p0);
      var c := SquaredDistance(p1, p2);
      var x := (p1.x - p0.x) * (p2.y - p0.y) - (p1.y - p0.y) * (p2.x - p0.x);
      4.0 * a * b == Sq(a + b - c) + 4.0 * Sq(x)
  {
    var ux, uy := p1.x - p0.x, p1.y - p0.y;
    var vx, vy := p2.x - p0.x, p2.y - p0.y;
    assert p1.x - p2.x == ux - vx && p1.y - p2.y == uy - vy;
    CosineRuleAlgebra(ux, uy, vx, vy);
  }

  /** If `n^2` falls short of `s^2 = 4ab` by a square, `n / s` is a cosine. */
  lemma CosineBound(n: real, x: real, a: real, b: real, s: real)
    requires 0.0 < a && 0.0 < b && 0.0 <= s
    requires 4.0 * a * b == Sq(n) + 4.0 * Sq(x)
    requires Sq(s) == 4.0 * a * b
    ensures -1.0 <= n / s <= 1.0
  {
    SquareNonNegative(x);
    ProductSign(a, b);
    assert 0.0 < s by {
      assert Sq(0.0) == 0.0;
    }
    AbsBoundFromSquares(n, s);
    UnitRatio(n, s);
  }

  /** `(a + b - c) / Math.sqrt(4 * a * b)`: the cosine of the angle at `p0`.
      By Cauchy-Schwarz it always lies in [-1, 1], so `acos` is defined on it. */
  function CosineAtVertex(t: Trig, p0: Landmark, p1: Landmark, p2: Landmark): (q: real)
    requires Lawful(t)
    requires Triangle(p0, p1, p2)
    ensures -1.0 <= q <= 1.0
  {
    var a := SquaredDistance(p1, p0);
    var b := SquaredDistance(p2, p0);
    var c := SquaredDistance(p1, p2);
    var x := (p1.x - p0.x) * (p2.y - p0.y) - (p1.y - p0.y) * (p2.x - p0.x);
    CosineRule(p0, p1, p2);
    ProductSign(a, b);
    SqrtOfPositive(t, 4.0 * a * b);
    CosineBound(a + b - c, x, a, b, t.sqrt(4.0 * a * b));
    (a + b - c) / t.sqrt(4.0 * a * b)
  }

  /** The angle at `p0` between the rays to `p1` and `p2`, in degrees. */
  function VertexAngle(t: Trig, p0: Landmark, p1: Landmark, p2: Landmark): (theta: real)
    requires Lawful(t)
    requires Triangle(p0, p1, p2)
    ensures 0.0 <= theta <= 180.0
  {
    t.acosDeg(CosineAtVertex(t, p0, p1, p2))
  }

  // ---------------------------------------------------------------------
  // Unsigned and signed angle between two vectors
  // ---------------------------------------------------------------------

  function Dot(v1: Vec, v2: Vec): real
  {
    v1.x * v2.x + v1.y * v2.y
  }

  /** The 2D cross product `v1.x * v2.y - v1.y * v2.x`. */
  function Cross(v1: Vec, v2: Vec): real
  {
    v1.x * v2.y - v1.y * v2.x
  }

  predicate IsZero(v: Vec)
  {
    v.x == 0.0 && v.y == 0.0
  }

  function SquaredLength(v: Vec): real
  {
    Sq(v.x) + Sq(v.y)
  }

  /** `Math.sqrt(v.x ** 2 + v.y ** 2)` */
  function Magnitude(t: Trig, v: Vec): (m: real)
    requires Lawful(t)
    ensures 0.0 <= m && Sq(m) == SquaredLength(v)
    ensures m == 0.0 <==> IsZero(v)
  {
    SumOfSquaresZero(v.x, v.y);
    SqrtFacts(t, SquaredLength(v));
    t.sqrt(SquaredLength(v))
  }

  /** Lagrange's identity relating the dot and cross products to the
      squared lengths. */
  lemma Lagrange(v1: Vec, v2: Vec)
    ensures Sq(Dot(v1, v2)) + Sq(Cross(v1, v2)) == SquaredLength(v1) * SquaredLength(v2)
  {
  }

  /** `dot / (mag1 * mag2)`, the cosine handed to `acos` for two non-zero vectors. */
  function CosineBetween(t: Trig, v1: Vec, v2: Vec): (q: real)
    requires Lawful(t)
    requires !IsZero(v1) && !IsZero(v2)
    ensures -1.0 <= q <= 1.0
    ensures Cross(v1, v2) != 0.0 ==> -1.0 < q < 1.0
    ensures Cross(v1, v2) == 0.0 && Dot(v1, v2) > 0.0 ==> q == 1.0
    ensures Cross(v1, v2) == 0.0 && Dot(v1, v2) < 0.0 ==> q == -1.0
  {
    var m1 := Magnitude(t, v1);
    var m2 := Magnitude(t, v2);
    CosineBetweenFacts(Dot(v1, v2), Cross(v1, v2), m1, m2, SquaredLength(v1), SquaredLength(v2));
    Dot(v1, v2) / (m1 * m2)
  }

  /** The cosine between two vectors from their dot product `d`, cross
      product `c` and lengths `m1`, `m2`, given Lagrange's identity. */
  lemma CosineBetweenFacts(d: real, c: real, m1: real, m2: real, l1: real, l2: real)
    requires 0.0 < m1 && 0.0 < m2
    requires Sq(m1) == l1 && Sq(m2) == l2
    requires Sq(d) + Sq(c) == l1 * l2
    ensures 0.0 < m1 * m2
    ensures -1.0 <= d / (m1 * m2) <= 1.0
    ensures c != 0.0 ==> -1.0 < d / (m1 * m2) < 1.0
    ensures c == 0.0 && d > 0.0 ==> d / (m1 * m2) == 1.0
    ensures c == 0.0 && d < 0.0 ==> d / (m1 * m2) == -1.0
  {
    var m := m1 * m2;
    ProductSign(m1, m2);
    SquareOfProduct(m1, m2);
    assert Sq(m) == l1 * l2;
    SquareNonNegative(c);
    if c != 0.0 {
      SquarePositive(c);
    }
    assert Sq(0.0) == 0.0;
    AbsBoundFromSquares(d, m);
    UnitRatio(d, m);
  }

  /** `angleBetweenVectors`: the unsigned angle in degrees, 0 when either
      vector has zero length. */
  function AngleBetween(t: Trig, v1: Vec, v2: Vec): (r: real)
    requires Lawful(t)
    ensures 0.0 <= r <= 180.0
    ensures IsZero(v1) || IsZero(v2) ==> r == 0.0
    ensures !IsZero(v1) && !IsZero(v2) && Cross(v1, v2) != 0.0 ==> 0.0 < r < 180.0
    ensures !IsZero(v1) && !IsZero(v2) && Cross(v1, v2) == 0.0 && Dot(v1, v2) > 0.0 ==> r == 0.0
    ensures !IsZero(v1) && !IsZero(v2) && Cross(v1, v2) == 0.0 && Dot(v1, v2) < 0.0 ==> r == 180.0
  {
    var m1 := Magnitude(t, v1);
    var m2 := Magnitude(t, v2);
    if m1 == 0.0 || m2 == 0.0 then 0.0
    else t.acosDeg(CosineBetween(t, v1, v2))
  }

  /** `signedAngle`: the unsigned angle, negated when the cross product is
      negative. */
  function SignedAngle(t: Trig, v1: Vec, v2: Vec): (r: real)
    requires Lawful(t)
    ensures Abs(r) == AngleBetween(t, v1, v2)
    ensures r < 0.0 <==> Cross(v1, v2) < 0.0 && AngleBetween(t, v1, v2) > 0.0
    ensures IsZero(v1) || IsZero(v2) ==> r == 0.0
    ensures !IsZero(v1) && !IsZero(v2) && Cross(v1, v2) < 0.0 ==> -180.0 < r < 0.0
    ensures !IsZero(v1) && !IsZero(v2) && Cross(v1, v2) > 0.0 ==> 0.0 < r < 180.0
    ensures !IsZero(v1) && !IsZero(v2) && Cross(v1, v2) == 0.0 && Dot(v1, v2) > 0.0 ==> r == 0.0
    ensures !IsZero(v1) && !IsZero(v2) && Cross(v1, v2) == 0.0 && Dot(v1, v2) < 0.0 ==> r == 180.0
  {
    var unsigned := AngleBetween(t, v1, v2);
    if Cross(v1, v2) < 0.0 then -unsigned else unsigned
  }

  // ---------------------------------------------------------------------
  // Display rounding
  // ---------------------------------------------------------------------

  /** `Math.round(v * 100) / 100`; JavaScript rounds halves upwards. */
  function Round2(v: real): (r: real)
    ensures (r * 100.0).Floor as real == r * 100.0
    ensures v - 0.005 < r <= v + 0.005
  {
    (v * 100.0 + 0.5).Floor as real / 100.0
  }

  /** Rounding keeps a value inside bounds that are whole hundredths. */
  lemma Round2Within(v: real, lo: int, hi: int)
    requires lo as real <= v * 100.0 <= hi as real
    ensures lo as real / 100.0 <= Round2(v) <= hi as real / 100.0
  {
    var k := (v * 100.0 + 0.5).Floor;
    assert Round2(v) == k as real / 100.0;
    assert lo <= k <= hi;
  }

  /** Rounding to hundredths never reverses an order. */
  lemma Round2Monotone(v: real, w: real)
    requires v <= w
    ensures Round2(v) <= Round2(w)
  {
    assert (v * 100.0 + 0.5).Floor <= (w * 100.0 + 0.5).Floor;
  }

  /** A non-negative value rounds to zero exactly when it is below half a hundredth. */
  lemma Round2Zero(v: real)
    requires 0.0 <= v
    ensures Round2(v) == 0.0 <==> v < 0.005
  {
    var k := (v * 100.0 + 0.5).Floor;
    assert Round2(v) == k as real / 100.0;
  }

  /** `Number(v.toFixed(2))`: the magnitude is rounded half up and the sign re-applied. */
  function Fixed2(v: real): (r: real)
    ensures v - 0.005 <= r <= v + 0.005
    ensures r > 0.0 ==> v > 0.0
    ensures r < 0.0 ==> v < 0.0
  {
    if v < 0.0 then -Round2(-v) else Round2(v)
  }

  lemma Fixed2Within(v: real, lo: int, hi: int)
    requires lo as real <= v * 100.0 <= hi as real
    ensures lo as real / 100.0 <= Fixed2(v) <= hi as real / 100.0
    ensures Abs(Fixed2(v) - v) <= 0.005
  {
    if v < 0.0 {
      Round2Within(-v, -hi, -lo);
    } else {
      Round2Within(v, lo, hi);
    }
  }
}

=== FILE: hand_resolver.dfy ===
/** The hand part of the upload tracker's frame step: each detected hand is
    matched to a pose arm by horizontal distance alone, its combined wrist
    angle is split into flexion and extension, and the wrist readings against
    the pose's right wrist are split into their two directions. */
module HandResolver {
  import opened Geometry
  import opened JointAngles

  datatype Side = Left | Right

  /** `distanceToRight < distanceToLeft`, each the absolute difference of x
      coordinates: y and z are never consulted, and a tie goes left. */
  function ResolveSide(handWrist: Landmark, rightWrist: Landmark, leftWrist: Landmark): (s: Side)
    ensures s == Right ==> Abs(handWrist.x - rightWrist.x) < Abs(handWrist.x - leftWrist.x)
    ensures s == Left ==> Abs(handWrist.x - leftWrist.x) <= Abs(handWrist.x - rightWrist.x)
  {
    if Abs(handWrist.x - rightWrist.x) < Abs(handWrist.x - leftWrist.x) then Right else Left
  }

  /** Exchanging the two pose wrists exchanges the side, except on a tie,
      which goes left both ways. */
  lemma ResolveSideSwap(h: Landmark, r: Landmark, l: Landmark)
    ensures Abs(h.x - r.x) != Abs(h.x - l.x) ==> ResolveSide(h, r, l) != ResolveSide(h, l, r)
    ensures Abs(h.x - r.x) == Abs(h.x - l.x) ==> ResolveSide(h, r, l) == Left == ResolveSide(h, l, r)
  {
  }

  /** Only x coordinates matter. */
  lemma ResolveSideReadsOnlyX(h: Landmark, r: Landmark, l: Landmark, h2: Landmark, r2: Landmark, l2: Landmark)
    requires h.x == h2.x && r.x == r2.x && l.x == l2.x
    ensures ResolveSide(h, r, l) == ResolveSide(h2, r2, l2)
  {
  }

  /** Pose wrists at x = 0.2 (left) and 0.8 (right) and a hand at 0.79: the
      hand belongs to the right arm. */
  lemma ResolveSideExample()
    ensures ResolveSide(Landmark(0.79, 0.5, 0.0), Landmark(0.8, 0.5, 0.0), Landmark(0.2, 0.5, 0.0)) == Right
  {
  }

  /** The pose elbow and wrist indices for a side: (14, 16) on the right,
      (13, 15) on the left. */
  function ElbowIndex(s: Side): nat
  {
    if s == Right then 14 else 13
  }

  function WristIndex(s: Side): nat
  {
    if s == Right then 16 else 15
  }

  /** A signed reading split into its positive and negative parts. */
  datatype Split = Split(pos: real, neg: real)

  /** `pos = a > 0 ? a : 0; neg = a < 0 ? Math.abs(a) : 0` */
  function SplitSigned(a: real): (s: Split)
    ensures 0.0 <= s.pos && 0.0 <= s.neg
    ensures s.pos - s.neg == a
    ensures s.pos == 0.0 || s.neg == 0.0
  {
    Split(if a > 0.0 then a else 0.0, if a < 0.0 then Abs(a) else 0.0)
  }

  /** The split is the only pair of non-negative parts, one of them zero,
      whose difference is the reading. */
  lemma SplitUnique(a: real, s: Split)
    requires 0.0 <= s.pos && 0.0 <= s.neg
    requires s.pos - s.neg == a
    requires s.pos == 0.0 || s.neg == 0.0
    ensures s == SplitSigned(a)
  {
  }

  /** A combined wrist angle splits into two halves in [0, 60]. */
  lemma SplitOfCombinedAngle(a: real)
    requires -60.0 <= a <= 60.0
    ensures 0.0 <= SplitSigned(a).pos <= 60.0 && 0.0 <= SplitSigned(a).neg <= 60.0
  {
  }

  /** A missing reading (`null`) fails both `< 0` and `> 0`, so both parts are 0. */
  function SplitReading(r: Option<real>): (s: Split)
    ensures r.None? ==> s == Split(0.0, 0.0)
    ensures r.Some? ==> s == SplitSigned(r.value)
  {
    match r
    case None => Split(0.0, 0.0)
    case Some(a) => SplitSigned(a)
  }

  /** What one hand contributes: its side, flexion/extension from the
      combined angle, radial/ulnar (`pos` radial, `neg` ulnar) and
      pronation/supination (`pos` pronation, `neg` supination). */
  datatype HandReading = HandReading(handIndex: nat, side: Side, flexExt: Split, radialUlnar: Split, proSup: Split)

  /** The detector's hand landmarks read here: 0 (wrist), 4 (thumb tip),
      8 (index tip), 12 (middle tip). Indices 0 and 8 are dereferenced
      unguarded; 12 may be missing. */
  predicate HandReadable(hand: seq<Landmark>)
  {
    |hand| > 8
  }

  /** The body of `handResults.landmarks.forEach((handLandmarks, i) => ...)`. */
  function ProcessHand(t: Trig, pose: seq<Landmark>, hand: seq<Landmark>, i: nat): (h: HandReading)
    requires Lawful(t)
    requires |pose| > 16 && HandReadable(hand)
    ensures h.handIndex == i
    ensures h.side == ResolveSide(hand[0], pose[16], pose[15])
    ensures h.flexExt.pos - h.flexExt.neg
         == CombinedWristAngle(t, pose[ElbowIndex(h.side)], pose[WristIndex(h.side)], hand[8])
    ensures h.flexExt.pos <= 60.0 && h.flexExt.neg <= 60.0
    ensures h.radialUlnar == SplitReading(RadialUlnar(t, Some(pose[16]), At(hand, 12)))
    ensures h.proSup == SplitReading(ProSup(t, Some(pose[16]), Some(hand[4])))
  {
    var side := ResolveSide(hand[0], pose[16], pose[15]);
    var angle := CombinedWristAngle(t, pose[ElbowIndex(side)], pose[WristIndex(side)], hand[8]);
    SplitOfCombinedAngle(angle);
    HandReading(i, side, SplitSigned(angle),
                SplitReading(RadialUlnar(t, Some(pose[16]), At(hand, 12))),
                SplitReading(ProSup(t, Some(pose[16]), Some(hand[4]))))
  }

  /** Radial/ulnar and pronation/supination always read pose landmark 16,
      whichever arm the hand was matched to: changing the left arm's
      landmarks 13 and 15 never changes them. */
  lemma WristReadingsUseRightWrist(t: Trig, pose: seq<Landmark>, hand: seq<Landmark>, i: nat,
                                   elbow: Landmark, wrist: Landmark)
    requires Lawful(t)
    requires |pose| > 16 && HandReadable(hand)
    ensures var other := pose[13 := elbow][15 := wrist];
      && ProcessHand(t, other, hand, i).radialUlnar == ProcessHand(t, pose, hand, i).radialUlnar
      && ProcessHand(t, other, hand, i).proSup == ProcessHand(t, pose, hand, i).proSup
  {
    var other := pose[13 := elbow][15 := wrist];
    assert other[16] == pose[16];
  }

  /** The on-screen wrist readouts; `None` until first set. */
  datatype Display = Display(handAngles: Option<Split>, pronation: Option<real>, supination: Option<real>,
                             ulnar: Option<real>, radial: Option<real>)

  const InitialDisplay := Display(None, None, None, None, None)

  /** The readouts after showing one hand: the four setters, then the
      combined-angle line. */
  function Show(d: Display, h: HandReading): (d': Display)
    ensures d'.handAngles == Some(h.flexExt)
    ensures d'.pronation == Some(h.proSup.pos) && d'.supination == Some(h.proSup.neg)
    ensures d'.radial == Some(h.radialUlnar.pos) && d'.ulnar == Some(h.radialUlnar.neg)
  {
    Display(Some(h.flexExt), Some(h.proSup.pos), Some(h.proSup.neg), Some(h.radialUlnar.neg), Some(h.radialUlnar.pos))
  }

  /** What the readouts mean after one hand is shown, whatever they showed
      before: radial minus ulnar is the radial/ulnar reading (both zero when
      the middle fingertip is missing), pronation minus supination is the
      pronation/supination reading, the combined line is the combined wrist
      angle of the matched arm, and of each pair at most one is non-zero. */
  lemma {:induction false} ShowHand(t: Trig, pose: seq<Landmark>, hand: seq<Landmark>, i: nat, d: Display)
    requires Lawful(t)
    requires |pose| > 16 && HandReadable(hand)
    ensures var h := ProcessHand(t, pose, hand, i);
      var s := Show(d, h);
      var ru := RadialUlnar(t, Some(pose[16]), At(hand, 12));
      var ps := ProSup(t, Some(pose[16]), Some(hand[4]));
      && s.radial.Some? && s.ulnar.Some? && s.pronation.Some? && s.supination.Some? && s.handAngles.Some?
      && 0.0 <= s.radial.value && 0.0 <= s.ulnar.value && (s.radial.value == 0.0 || s.ulnar.value == 0.0)
      && (ru.Some? ==> s.radial.value - s.ulnar.value == ru.value)
      && (ru.None? ==> s.radial.value == 0.0 && s.ulnar.value == 0.0)
      && 0.0 <= s.pronation.value && 0.0 <= s.supination.value
      && (s.pronation.value == 0.0 || s.supination.value == 0.0)
      && s.pronation.value - s.supination.value == ps.value
      && s.handAngles.value.pos - s.handAngles.value.neg
         == CombinedWristAngle(t, pose[ElbowIndex(h.side)], pose[WristIndex(h.side)], hand[8])
      && s == Show(InitialDisplay, h)
  {
    var h := ProcessHand(t, pose, hand, i);
    var ru := RadialUlnar(t, Some(pose[16]), At(hand, 12));
    var ps := ProSup(t, Some(pose[16]), Some(hand[4]));
    assert h.radialUlnar == SplitReading(ru);
    assert h.proSup == SplitSigned(ps.value);
  }

  /** The readings of a frame's hands and the readouts they leave behind. */
  datatype HandFrameResult = HandFrameResult(readings: seq<HandReading>, display: Display)

  /** The hand loop of `detectFrame`: nothing happens unless at least one
      pose and one hand were detected; then one reading per hand, in
      order, each against the first pose, and the readouts show the last
      hand. */
  function HandFrame(t: Trig, poses: seq<seq<Landmark>>, hands: seq<seq<Landmark>>, d: Display): (r: HandFrameResult)
    requires Lawful(t)
    requires |poses| > 0 && |hands| > 0 ==> |poses[0]| > 16
    requires |poses| > 0 ==> forall k :: 0 <= k < |hands| ==> |hands[k]| > 8
    ensures |poses| == 0 || |hands| == 0 ==> r.readings == [] && r.display == d
    ensures |poses| > 0 && |hands| > 0 ==> |r.readings| == |hands|
    ensures |poses| > 0 && |hands| > 0 ==>
      (forall k :: 0 <= k < |hands| ==> (r.readings[k].handIndex == k
        && r.readings[k].side == ResolveSide(hands[k][0], poses[0][16], poses[0][15])))
    ensures |poses| > 0 && |hands| > 0 ==>
      forall k :: 0 <= k < |hands| ==> r.readings[k] == ProcessHand(t, poses[0], hands[k], k)
    ensures |poses| > 0 && |hands| > 0 ==> r.display == Show(d, r.readings[|hands| - 1])
  {
    if |poses| == 0 || |hands| == 0 then HandFrameResult([], d)
    else
      var pose := poses[0];
      var readings := seq(|hands|, k requires 0 <= k < |hands| => ProcessHand(t, pose, hands[k], k));
      HandFrameResult(readings, Show(d, readings[|hands| - 1]))
  }

  /** After a frame with a pose and hands, the readouts describe the last
      hand alone: radial minus ulnar and pronation minus supination are its
      wrist readings against pose landmark 16, and the combined line is its
      matched arm's combined wrist angle. */
  lemma {:induction false} HandFrameReadouts(t: Trig, poses: seq<seq<Landmark>>, hands: seq<seq<Landmark>>, d: Display)
    requires Lawful(t)
    requires |poses| > 0 && |hands| > 0 && |poses[0]| > 16
    requires forall k :: 0 <= k < |hands| ==> |hands[k]| > 8
    ensures var last := hands[|hands| - 1];
      var s := HandFrame(t, poses, hands, d).display;
      var h := ProcessHand(t, poses[0], last, |hands| - 1);
      var ru := RadialUlnar(t, Some(poses[0][16]), At(last, 12));
      && s.radial.Some? && s.ulnar.Some? && s.pronation.Some? && s.supination.Some? && s.handAngles.Some?
      && (ru.Some? ==> s.radial.value - s.ulnar.value == ru.value)
      && (ru.None? ==> s.radial.value == 0.0 && s.ulnar.value == 0.0)
      && s.pronation.value - s.supination.value == ProSup(t, Some(poses[0][16]), Some(last[4])).value
      && s.handAngles.value.pos - s.handAngles.value.neg
         == CombinedWristAngle(t, poses[0][ElbowIndex(h.side)], poses[0][WristIndex(h.side)], last[8])
  {
    ShowHand(t, poses[0], hands[|hands| - 1], |hands| - 1, d);
  }

  // ---------------------------------------------------------------------
  // Face filters
  // ---------------------------------------------------------------------

  /** `poseLandmarks.filter((_, index) => index > 10)` */
  function DropFace(lms: seq<Landmark>): (body: seq<Landmark>)
    ensures |lms| <= 11 ==> body == []
    ensures |lms| > 11 ==> |body| == |lms| - 11
    ensures forall i :: 0 <= i < |body| ==> body[i] == lms[i + 11]
  {
    if |lms| <= 11 then [] else lms[11..]
  }

  /** A connection between two pose landmark indices. */
  datatype Connection = Connection(start: int, end: int)

  predicate OffFace(c: Connection)
  {
    c.start > 10 && c.end > 10
  }

  /** `poseConnectionsArray.filter(([start, end]) => start > 10 && end > 10)` */
  function KeepOffFace(cs: seq<Connection>): (kept: seq<Connection>)
    ensures |kept| <= |cs|
    ensures forall c :: c in kept <==> c in cs && OffFace(c)
  {
    if |cs| == 0 then []
    else if OffFace(cs[0]) then [cs[0]] + KeepOffFace(cs[1..])
    else KeepOffFace(cs[1..])
  }

  /** Filtering keeps the original order: it commutes with concatenation. */
  lemma {:induction false} KeepOffFaceAppend(a: seq<Connection>, b: seq<Connection>)
    ensures KeepOffFace(a + b) == KeepOffFace(a) + KeepOffFace(b)
  {
    if |a| == 0 {
      assert a + b == b;
    } else {
      assert (a + b)[1..] == a[1..] + b;
      KeepOffFaceAppend(a[1..], b);
    }
  }

  /** Filtering twice is filtering once. */
  lemma {:induction false} KeepOffFaceIdempotent(cs: seq<Connection>)
    ensures KeepOffFace(KeepOffFace(cs)) == KeepOffFace(cs)
  {
    if |cs| > 0 {
      KeepOffFaceIdempotent(cs[1..]);
      if OffFace(cs[0]) {
        var rest := KeepOffFace(cs[1..]);
        assert ([cs[0]] + rest)[1..] == rest;
      }
    }
  }
}

=== FILE: joint_angles.dfy ===
/** The clinical joint readings. Each one takes a raw geometric angle — the
    law-of-cosines angle at a vertex, the direction of one ray, or the signed
    angle of a vector against a fixed reference — and maps it through a
    "neutral is zero" transform before rounding it for display. */
module JointAngles {
  import opened Geometry

  predicate AllPresent(p0: Option<Landmark>, p1: Option<Landmark>, p2: Option<Landmark>)
  {
    p0.Some? && p1.Some? && p2.Some?
  }

  /** When all three landmarks are present, neither ray out of `p0` has
      zero length (the readings divide by the product of the two lengths). */
  predicate Nondegenerate(p0: Option<Landmark>, p1: Option<Landmark>, p2: Option<Landmark>)
  {
    AllPresent(p0, p1, p2) ==> Triangle(p0.value, p1.value, p2.value)
  }

  // ---------------------------------------------------------------------
  // Neutral-zero transforms
  // ---------------------------------------------------------------------

  /** `Math.round(Math.max(0, 90 - angle) * 100) / 100`: how far a vertex
      angle falls short of a right angle. */
  function RightAngleShortfall(theta: real): (r: real)
    requires 0.0 <= theta <= 180.0
    ensures 0.0 <= r <= 90.0
    ensures r == 0.0 <==> theta > 89.995
  {
    Round2Zero(Max0(90.0 - theta));
    Round2Within(Max0(90.0 - theta), 0, 9000);
    Round2(Max0(90.0 - theta))
  }

  /** `Math.round(Math.max(0, 180 - angle) * 100) / 100`: how far a vertex
      angle falls short of a straight line. */
  function StraightShortfall(theta: real): (r: real)
    requires 0.0 <= theta <= 180.0
    ensures 0.0 <= r <= 180.0
    ensures r == 0.0 <==> theta > 179.995
  {
    Round2Zero(Max0(180.0 - theta));
    Round2Within(Max0(180.0 - theta), 0, 18000);
    Round2(Max0(180.0 - theta))
  }

  /** `Math.round(Math.max(0, Math.abs(angle) - 90) * 100) / 100`: how far
      a ray direction leans past the vertical. */
  function BeyondVertical(theta: real): (r: real)
    requires -180.0 < theta <= 180.0
    ensures 0.0 <= r <= 90.0
    ensures r == 0.0 <==> Abs(theta) < 90.005
  {
    Round2Zero(Max0(Abs(theta) - 90.0));
    Round2Within(Max0(Abs(theta) - 90.0), 0, 9000);
    Round2(Max0(Abs(theta) - 90.0))
  }

  /** `Math.round(Math.max(0, 90 - Math.abs(angle)) * 100) / 100`: how far
      a ray direction stays short of the vertical. */
  function ShortOfVertical(theta: real): (r: real)
    requires -180.0 < theta <= 180.0
    ensures 0.0 <= r <= 90.0
    ensures r == 0.0 <==> Abs(theta) > 89.995
  {
    Round2Zero(Max0(90.0 - Abs(theta)));
    Round2Within(Max0(90.0 - Abs(theta)), 0, 9000);
    Round2(Max0(90.0 - Abs(theta)))
  }

  /** Of the two readings of one ray direction, at most one is non-zero,
      and both are zero only in a band of half a hundredth around the
      vertical. */
  lemma VerticalSplit(theta: real)
    requires -180.0 < theta <= 180.0
    ensures BeyondVertical(theta) == 0.0 || ShortOfVertical(theta) == 0.0
    ensures BeyondVertical(theta) == 0.0 && ShortOfVertical(theta) == 0.0
        <==> 89.995 < Abs(theta) < 90.005
  {
  }

  /** A wider vertex angle never gives a larger shortfall reading. */
  lemma {:induction false} RightAngleShortfallAntitone(theta1: real, theta2: real)
    requires 0.0 <= theta1 <= theta2 <= 180.0
    ensures RightAngleShortfall(theta2) <= RightAngleShortfall(theta1)
  {
    Round2Monotone(Max0(90.0 - theta2), Max0(90.0 - theta1));
  }

  // ---------------------------------------------------------------------
  // Readings built on the angle at a vertex
  // ---------------------------------------------------------------------

  /** The contract shared by every reading of the form
      `max(0, 90 - angle at p0)`: missing exactly when a landmark is, and
      otherwise a value in [0, 90] that is zero exactly when the angle at
      `p0` is (to display precision) a right angle or wider. */
  ghost predicate RightAngleReading(t: Trig, p0: Option<Landmark>, p1: Option<Landmark>, p2: Option<Landmark>, r: Option<real>)
    requires Lawful(t)
    requires Nondegenerate(p0, p1, p2)
  {
    && (r.Some? <==> AllPresent(p0, p1, p2))
    && (r.Some? ==>
          && 0.0 <= r.value <= 90.0
          && (r.value == 0.0 <==> VertexAngle(t, p0.value, p1.value, p2.value) > 89.995))
  }

  /** `calculateUlnarDeviation(p0, p1, p2)` */
  function UlnarDeviation(t: Trig, p0: Option<Landmark>, p1: Option<Landmark>, p2: Option<Landmark>): (r: Option<real>)
    requires Lawful(t)
    requires Nondegenerate(p0, p1, p2)
    ensures RightAngleReading(t, p0, p1, p2, r)
  {
    if !AllPresent(p0, p1, p2) then None
    else Some(RightAngleShortfall(VertexAngle(t, p0.value, p1.value, p2.value)))
  }

  /** `calculateRadialDeviation(p0, p1, p2)`: its own guard, then the ulnar formula. */
  function RadialDeviation(t: Trig, p0: Option<Landmark>, p1: Option<Landmark>, p2: Option<Landmark>): (r: Option<real>)
    requires Lawful(t)
    requires Nondegenerate(p0, p1, p2)
    ensures r == UlnarDeviation(t, p0, p1, p2)
  {
    if !AllPresent(p0, p1, p2) then None else UlnarDeviation(t, p0, p1, p2)
  }

  /** `calculatePronation(p0, p1, p2)` */
  function Pronation(t: Trig, p0: Option<Landmark>, p1: Option<Landmark>, p2: Option<Landmark>): (r: Option<real>)
    requires Lawful(t)
    requires Nondegenerate(p0, p1, p2)
    ensures RightAngleReading(t, p0, p1, p2, r)
  {
    if !AllPresent(p0, p1, p2) then None
    else Some(RightAngleShortfall(VertexAngle(t, p0.value, p1.value, p2.value)))
  }

  /** `calculateSupination(p0, p1, p2)`: its own guard, then the pronation formula. */
  function Supination(t: Trig, p0: Option<Landmark>, p1: Option<Landmark>, p2: Option<Landmark>): (r: Option<real>)
    requires Lawful(t)
    requires Nondegenerate(p0, p1, p2)
    ensures r == Pronation(t, p0, p1, p2)
  {
    if !AllPresent(p0, p1, p2) then None else Pronation(t, p0, p1, p2)
  }

  /** `calculateNeckRotation(nose, leftShoulder, rightShoulder)` */
  function NeckRotation(t: Trig, p0: Option<Landmark>, p1: Option<Landmark>, p2: Option<Landmark>): (r: Option<real>)
    requires Lawful(t)
    requires Nondegenerate(p0, p1, p2)
    ensures RightAngleReading(t, p0, p1, p2, r)
  {
    if !AllPresent(p0, p1, p2) then None
    else Some(RightAngleShortfall(VertexAngle(t, p0.value, p1.value, p2.value)))
  }

  /** `calculateNeckLateralBending(nose, leftShoulder, rightShoulder)`: a
      separate copy of the neck-rotation formula, so the two readings are
      always equal. */
  function NeckLateralBending(t: Trig, p0: Option<Landmark>, p1: Option<Landmark>, p2: Option<Landmark>): (r: Option<real>)
    requires Lawful(t)
    requires Nondegenerate(p0, p1, p2)
    ensures r == NeckRotation(t, p0, p1, p2)
  {
    if !AllPresent(p0, p1, p2) then None
    else Some(Round2(Max0(90.0 - VertexAngle(t, p0.value, p1.value, p2.value))))
  }

  /** The unexported `calculate([p0, p1, p2])`: the same formula without a guard. */
  function Calculate(t: Trig, p0: Landmark, p1: Landmark, p2: Landmark): (r: real)
    requires Lawful(t)
    requires Triangle(p0, p1, p2)
    ensures Some(r) == UlnarDeviation(t, Some(p0), Some(p1), Some(p2))
  {
    Round2(Max0(90.0 - VertexAngle(t, p0, p1, p2)))
  }

  /** A wider angle at the wrist never gives a larger ulnar deviation. */
  lemma {:induction false} UlnarDeviationAntitone(t: Trig, p0: Landmark, p1: Landmark, p2: Landmark,
                                                   q0: Landmark, q1: Landmark, q2: Landmark)
    requires Lawful(t)
    requires Triangle(p0, p1, p2) && Triangle(q0, q1, q2)
    ensures VertexAngle(t, p0, p1, p2) <= VertexAngle(t, q0, q1, q2) ==>
      UlnarDeviation(t, Some(q0), Some(q1), Some(q2)).value
        <= UlnarDeviation(t, Some(p0), Some(p1), Some(p2)).value
  {
    if VertexAngle(t, p0, p1, p2) <= VertexAngle(t, q0, q1, q2) {
      RightAngleShortfallAntitone(VertexAngle(t, p0, p1, p2), VertexAngle(t, q0, q1, q2));
    }
  }

  /** `calculateLumbarFlexion(hip, shoulder, knee)` */
  function LumbarFlexion(t: Trig, p0: Option<Landmark>, p1: Option<Landmark>, p2: Option<Landmark>): (r: Option<real>)
    requires Lawful(t)
    requires Nondegenerate(p0, p1, p2)
    ensures r.Some? <==> AllPresent(p0, p1, p2)
    ensures r.Some? ==> 0.0 <= r.value <= 180.0
    ensures r.Some? ==> (r.value == 0.0 <==> VertexAngle(t, p0.value, p1.value, p2.value) > 179.995)
  {
    if !AllPresent(p0, p1, p2) then None
    else Some(StraightShortfall(VertexAngle(t, p0.value, p1.value, p2.value)))
  }

  /** `calculateLumbarExtension(hip, shoulder, knee)`: `|180 - angle|`,
      which coincides with the flexion reading because the angle never
      exceeds 180 degrees. */
  function LumbarExtension(t: Trig, p0: Option<Landmark>, p1: Option<Landmark>, p2: Option<Landmark>): (r: Option<real>)
    requires Lawful(t)
    requires Nondegenerate(p0, p1, p2)
    ensures r == LumbarFlexion(t, p0, p1, p2)
  {
    if !AllPresent(p0, p1, p2) then None
    else Some(Round2(Abs(180.0 - VertexAngle(t, p0.value, p1.value, p2.value))))
  }

  // ---------------------------------------------------------------------
  // Readings built on the direction of one ray
  // ---------------------------------------------------------------------

  /** `calculateWristFlexion(elbow, wrist, index)`: the ray wrist -> index. */
  function WristFlexion(t: Trig, p0: Option<Landmark>, p1: Option<Landmark>, p2: Option<Landmark>): (r: Option<real>)
    requires Lawful(t)
    ensures r.Some? <==> AllPresent(p0, p1, p2)
    ensures r.Some? ==> 0.0 <= r.value <= 90.0
    ensures r.Some? ==> (r.value == 0.0 <==> Abs(RayAngle(t, p1.value, p2.value)) < 90.005)
  {
    if !AllPresent(p0, p1, p2) then None
    else Some(BeyondVertical(RayAngle(t, p1.value, p2.value)))
  }

  /** `calculateWristExtension(elbow, wrist, index)`: the same ray. */
  function WristExtension(t: Trig, p0: Option<Landmark>, p1: Option<Landmark>, p2: Option<Landmark>): (r: Option<real>)
    requires Lawful(t)
    ensures r.Some? <==> AllPresent(p0, p1, p2)
    ensures r.Some? ==> 0.0 <= r.value <= 90.0
    ensures r.Some? ==> (r.value == 0.0 <==> Abs(RayAngle(t, p1.value, p2.value)) > 89.995)
  {
    if !AllPresent(p0, p1, p2) then None
    else Some(ShortOfVertical(RayAngle(t, p1.value, p2.value)))
  }

  /** Wrist flexion and extension are never both non-zero, and both vanish
      only when the ray is within half a hundredth of vertical. */
  lemma WristFlexionExtensionExclusive(t: Trig, p0: Option<Landmark>, p1: Option<Landmark>, p2: Option<Landmark>)
    requires Lawful(t)
    requires AllPresent(p0, p1, p2)
    ensures WristFlexion(t, p0, p1, p2).value == 0.0 || WristExtension(t, p0, p1, p2).value == 0.0
    ensures WristFlexion(t, p0, p1, p2).value == 0.0 && WristExtension(t, p0, p1, p2).value == 0.0
        <==> 89.995 < Abs(RayAngle(t, p1.value, p2.value)) < 90.005
  {
    VerticalSplit(RayAngle(t, p1.value, p2.value));
  }

  /** The elbow is checked for presence but never read. */
  lemma WristReadingsIgnoreElbow(t: Trig, p0: Landmark, q0: Landmark, p1: Option<Landmark>, p2: Option<Landmark>)
    requires Lawful(t)
    ensures WristFlexion(t, Some(p0), p1, p2) == WristFlexion(t, Some(q0), p1, p2)
    ensures WristExtension(t, Some(p0), p1, p2) == WristExtension(t, Some(q0), p1, p2)
  {
  }

  /** `calculateNeckExtension(ear, shoulder, nose)`: the ray shoulder -> ear. */
  function NeckExtension(t: Trig, p0: Option<Landmark>, p1: Option<Landmark>, p2: Option<Landmark>): (r: Option<real>)
    requires Lawful(t)
    ensures r.Some? <==> AllPresent(p0, p1, p2)
    ensures r.Some? ==> 0.0 <= r.value <= 90.0
    ensures r.Some? ==> (r.value == 0.0 <==> Abs(RayAngle(t, p1.value, p0.value)) > 89.995)
  {
    if !AllPresent(p0, p1, p2) then None
    else Some(ShortOfVertical(RayAngle(t, p1.value, p0.value)))
  }

  /** `calculateNeckFlexion(ear, shoulder, nose)`: the ray shoulder -> nose,
      with the wrist-flexion formula. */
  function NeckFlexion(t: Trig, p0: Option<Landmark>, p1: Option<Landmark>, p2: Option<Landmark>): (r: Option<real>)
    requires Lawful(t)
    ensures r == WristFlexion(t, p0, p1, p2)
  {
    if !AllPresent(p0, p1, p2) then None
    else Some(Round2(Max0(Abs(RayAngle(t, p1.value, p2.value)) - 90.0)))
  }

  /** `calculateLumbarLateral(nose, leftHip, rightHip, leftShoulder)`: all
      four landmarks are required, but only the ray left hip -> nose is read. */
  function LumbarLateral(t: Trig, nose: Option<Landmark>, leftHip: Option<Landmark>,
                         rightHip: Option<Landmark>, leftShoulder: Option<Landmark>): (r: Option<real>)
    requires Lawful(t)
    ensures r.Some? <==> nose.Some? && leftHip.Some? && rightHip.Some? && leftShoulder.Some?
    ensures r.Some? ==> 0.0 <= r.value <= 90.0
    ensures r.Some? ==> (r.value == 0.0 <==> Abs(RayAngle(t, leftHip.value, nose.value)) < 90.005)
  {
    if nose.None? || leftHip.None? || rightHip.None? || leftShoulder.None? then None
    else Some(BeyondVertical(RayAngle(t, leftHip.value, nose.value)))
  }

  /** The right hip and the left shoulder only gate the reading. */
  lemma LumbarLateralIgnoresGuards(t: Trig, nose: Option<Landmark>, leftHip: Option<Landmark>,
                                   rh1: Landmark, ls1: Landmark, rh2: Landmark, ls2: Landmark)
    requires Lawful(t)
    ensures LumbarLateral(t, nose, leftHip, Some(rh1), Some(ls1))
         == LumbarLateral(t, nose, leftHip, Some(rh2), Some(ls2))
  {
  }

  /** `calculateLumbarLateralFlexion(nose, shoulder, hip)`: the ray hip -> nose. */
  function LumbarLateralFlexion(t: Trig, p0: Option<Landmark>, p1: Option<Landmark>, p2: Option<Landmark>): (r: Option<real>)
    requires Lawful(t)
    ensures r.Some? <==> AllPresent(p0, p1, p2)
    ensures r.Some? ==> 0.0 <= r.value <= 90.0
    ensures r.Some? ==> (r.value == 0.0 <==> Abs(RayAngle(t, p2.value, p0.value)) < 90.005)
  {
    if !AllPresent(p0, p1, p2) then None
    else Some(BeyondVertical(RayAngle(t, p2.value, p0.value)))
  }

  // ---------------------------------------------------------------------
  // Readings built on a signed angle against a fixed reference
  // ---------------------------------------------------------------------

  function Delta(from: Landmark, to: Landmark): Vec
  {
    Vec(to.x - from.x, to.y - from.y)
  }

  /** `signedAngle({x: 1, y: 0}, to - from)`: the direction of the ray
      against the image's horizontal. Image y grows downwards, so a ray
      pointing up has a negative angle. */
  function HorizontalAngle(t: Trig, from: Landmark, to: Landmark): (a: real)
    requires Lawful(t)
    ensures -180.0 < a <= 180.0
    ensures a < 0.0 <==> to.y < from.y
    ensures a == 0.0 <==> to.y == from.y && to.x >= from.x
    ensures a == 180.0 <==> to.y == from.y && to.x < from.x
  {
    var v := Delta(from, to);
    assert Cross(Vec(1.0, 0.0), v) == v.y;
    assert Dot(Vec(1.0, 0.0), v) == v.x;
    SignedAngle(t, Vec(1.0, 0.0), v)
  }

  /** `signedAngle({x: 0, y: -1}, to - from)`: the direction of the ray
      against the image's upward vertical. */
  function UprightAngle(t: Trig, from: Landmark, to: Landmark): (a: real)
    requires Lawful(t)
    ensures -180.0 < a <= 180.0
    ensures a < 0.0 <==> to.x < from.x
    ensures a == 0.0 <==> to.x == from.x && to.y <= from.y
    ensures a == 180.0 <==> to.x == from.x && to.y > from.y
  {
    var v := Delta(from, to);
    assert Cross(Vec(0.0, -1.0), v) == v.x;
    assert Dot(Vec(0.0, -1.0), v) == -v.y;
    SignedAngle(t, Vec(0.0, -1.0), v)
  }

  /** `if (angle > hi) angle = hi; if (angle < lo) angle = lo;` */
  function Clamp(v: real, lo: real, hi: real): (r: real)
    requires lo <= hi
    ensures lo <= r <= hi
    ensures lo <= v <= hi ==> r == v
    ensures v > hi ==> r == hi
    ensures v < lo ==> r == lo
  {
    if v > hi then hi else if v < lo then lo else v
  }

  /** `calculateCombinedWristAngle(poseElbow, poseWrist, handIndexTip)`: no
      guard, the elbow is never read, and the horizontal angle of
      wrist -> index tip is clamped to [-60, 60]. */
  function CombinedWristAngle(t: Trig, elbow: Landmark, wrist: Landmark, indexTip: Landmark): (r: real)
    requires Lawful(t)
    ensures -60.0 <= r <= 60.0
    ensures r < 0.0 <==> indexTip.y < wrist.y
    ensures r == 0.0 <==> indexTip.y == wrist.y && indexTip.x >= wrist.x
    ensures indexTip.y == wrist.y && indexTip.x < wrist.x ==> r == 60.0
    ensures Abs(r) <= Abs(HorizontalAngle(t, wrist, indexTip))
  {
    Clamp(HorizontalAngle(t, wrist, indexTip), -60.0, 60.0)
  }

  lemma CombinedWristAngleIgnoresElbow(t: Trig, e1: Landmark, e2: Landmark, wrist: Landmark, indexTip: Landmark)
    requires Lawful(t)
    ensures CombinedWristAngle(t, e1, wrist, indexTip) == CombinedWristAngle(t, e2, wrist, indexTip)
  {
  }

  /** `calculateRadialUlnar(poseWrist, handMiddleFingerTip)`: the
      unclamped horizontal angle of wrist -> middle fingertip, rounded by
      `toFixed(2)`. */
  function RadialUlnar(t: Trig, wrist: Option<Landmark>, middleTip: Option<Landmark>): (r: Option<real>)
    requires Lawful(t)
    ensures r.Some? <==> wrist.Some? && middleTip.Some?
    ensures r.Some? ==> -180.0 <= r.value <= 180.0
    ensures r.Some? ==> Abs(r.value - HorizontalAngle(t, wrist.value, middleTip.value)) <= 0.005
  {
    if wrist.None? || middleTip.None? then None
    else
      var a := HorizontalAngle(t, wrist.value, middleTip.value);
      Fixed2Within(a, -18000, 18000);
      Some(Fixed2(a))
  }

  /** Rounding never flips the side: a negative reading means the fingertip
      is above the wrist, a positive one that it is not. */
  lemma RadialUlnarSide(t: Trig, wrist: Landmark, middleTip: Landmark)
    requires Lawful(t)
    ensures RadialUlnar(t, Some(wrist), Some(middleTip)).value < 0.0 ==> middleTip.y < wrist.y
    ensures RadialUlnar(t, Some(wrist), Some(middleTip)).value > 0.0 ==> middleTip.y >= wrist.y
  {
    var a := HorizontalAngle(t, wrist, middleTip);
    assert RadialUlnar(t, Some(wrist), Some(middleTip)).value == Fixed2(a);
  }

  /** `calculateWristPronationSupination(poseWrist, handThumbTip)`: the
      upright angle of wrist -> thumb tip, less 20 degrees, rounded by
      `toFixed(2)`. */
  function ProSup(t: Trig, wrist: Option<Landmark>, thumbTip: Option<Landmark>): (r: Option<real>)
    requires Lawful(t)
    ensures r.Some? <==> wrist.Some? && thumbTip.Some?
    ensures r.Some? ==> -200.0 <= r.value <= 160.0
    ensures r.Some? ==> Abs(r.value - (UprightAngle(t, wrist.value, thumbTip.value) - 20.0)) <= 0.005
  {
    if wrist.None? || thumbTip.None? then None
    else
      var a := UprightAngle(t, wrist.value, thumbTip.value) - 20.0;
      Fixed2Within(a, -20000, 16000);
      Some(Fixed2(a))
  }

  /** Before the offset, the sign of the pronation/supination angle is the
      side of the thumb: negative exactly when the thumb tip is left of the wrist. */
  lemma ProSupSide(t: Trig, wrist: Landmark, thumbTip: Landmark)
    requires Lawful(t)
    ensures thumbTip.x < wrist.x ==> ProSup(t, Some(wrist), Some(thumbTip)).value <= -20.0
    ensures thumbTip.x > wrist.x ==> ProSup(t, Some(wrist), Some(thumbTip)).value >= -20.0
  {
    var a := UprightAngle(t, wrist, thumbTip) - 20.0;
    if thumbTip.x < wrist.x {
      Fixed2Within(a, -20000, -2000);
    } else if thumbTip.x > wrist.x {
      Fixed2Within(a, -2000, 16000);
    }
  }
}

=== FILE: keypoints.dfy ===
/** Keypoint drawing in the pose estimation component: only confident
    keypoints are drawn as dots, and the skeleton joins each keypoint to the
    next one in list order. Nothing is drawn without a canvas context. */
module Keypoints {
  /** A keypoint in canvas coordinates with the detector's confidence. */
  datatype Keypoint = Keypoint(x: real, y: real, score: real)

  /** `score > 0.5`, strictly. */
  predicate Confident(k: Keypoint)
  {
    k.score > 0.5
  }

  /** The confident keypoints, in their original order. */
  function ConfidentOnes(kps: seq<Keypoint>): (r: seq<Keypoint>)
    ensures |r| <= |kps|
    ensures forall k :: k in r <==> k in kps && Confident(k)
  {
    if |kps| == 0 then []
    else if Confident(kps[0]) then [kps[0]] + ConfidentOnes(kps[1..])
    else ConfidentOnes(kps[1..])
  }

  /** Selecting from a list extended by one keypoint extends the selection
      by that keypoint exactly when it is confident. */
  lemma {:induction false} ConfidentOnesSnoc(kps: seq<Keypoint>, k: Keypoint)
    ensures ConfidentOnes(kps + [k]) == ConfidentOnes(kps) + (if Confident(k) then [k] else [])
    decreases |kps|
  {
    if |kps| == 0 {
      assert kps + [k] == [k];
      assert [k][1..] == [];
    } else {
      assert (kps + [k])[1..] == kps[1..] + [k];
      ConfidentOnesSnoc(kps[1..], k);
    }
  }

  /** The keypoints `drawKeypoints` draws a dot for, in drawing order. */
  method SelectKeypoints(kps: seq<Keypoint>, hasContext: bool) returns (drawn: seq<Keypoint>)
    ensures !hasContext ==> drawn == []
    ensures hasContext ==> drawn == ConfidentOnes(kps)
    ensures forall k :: k in drawn ==> Confident(k)
  {
    drawn := [];
    if !hasContext {
      return;
    }
    var i := 0;
    while i < |kps|
      invariant 0 <= i <= |kps|
      invariant drawn == ConfidentOnes(kps[..i])
    {
      ConfidentOnesSnoc(kps[..i], kps[i]);
      assert kps[..i + 1] == kps[..i] + [kps[i]];
      if kps[i].score > 0.5 {
        drawn := drawn + [kps[i]];
      }
      i := i + 1;
    }
    assert kps[..|kps|] == kps;
  }

  /** A line of the skeleton, from one keypoint to the next. */
  datatype Segment = Segment(from: Keypoint, to: Keypoint)

  /** The lines `drawSkeleton` draws: keypoint i to keypoint i + 1 for every
      i below `length - 1`, so one fewer than the keypoints and none for a
      single keypoint or an empty list. */
  method SkeletonSegments(kps: seq<Keypoint>, hasContext: bool) returns (segments: seq<Segment>)
    ensures |segments| == if hasContext && |kps| > 1 then |kps| - 1 else 0
    ensures forall i :: 0 <= i < |segments| ==> segments[i] == Segment(kps[i], kps[i + 1])
  {
    segments := [];
    if !hasContext {
      return;
    }
    var last := |kps| - 1;
    var i := 0;
    while i < last
      invariant 0 <= i
      invariant i == 0 || i <= last
      invariant |segments| == i
      invariant forall j :: 0 <= j < i ==> segments[j] == Segment(kps[j], kps[j + 1])
    {
      segments := segments + [Segment(kps[i], kps[i + 1])];
      i := i + 1;
    }
  }
}

=== FILE: lifecycle.dfy ===
/** The webcam life cycle shared, with variations, by the tracker
    components: a toggle that does nothing until the detector has loaded, an
    effect that attaches a camera stream when running and (in two of them)
    tears it down when not, and a frame loop that reschedules itself only
    while running. The camera, the detector and the browser's frame
    scheduler are outside the model: attaching a stream is a flag, and the
    handle the scheduler returns is an input. */
module Lifecycle {
  import opened Geometry

  /** A frame-request handle: browsers hand out positive ids, so a stored
      handle is always truthy. */
  type Handle = h: int | h > 0 witness 1

  /** `loaded`: the detector has been created; `running`: the
      `webcamRunning` flag; `attached`: the video element holds a stream
      (`srcObject` non-null); `pending`: the stored frame handle, where a
      component stores one. */
  datatype Session = Session(loaded: bool, running: bool, attached: bool, pending: Option<Handle>)

  const InitialSession := Session(false, false, false, None)

  /** What a transition did besides changing the session: requested a
      frame, cancelled a handle, stopped the stream's tracks. */
  datatype Outcome = Outcome(session: Session, scheduled: bool, cancelled: Option<Handle>, tracksStopped: bool)

  function Quiet(s: Session): Outcome
  {
    Outcome(s, false, None, false)
  }

  // ---------------------------------------------------------------------
  // Toggles
  // ---------------------------------------------------------------------

  /** `handleEnableWebcam` of the upload tracker, the trackers and the
      framed tracker: flip `running`, once the detector exists. */
  function Toggle(s: Session): (r: Session)
    ensures r.running != s.running <==> s.loaded
    ensures r.(running := s.running) == s
  {
    if !s.loaded then s else s.(running := !s.running)
  }

  /** Toggling twice changes nothing. */
  lemma ToggleTwice(s: Session)
    ensures Toggle(Toggle(s)) == s
  {
  }

  /** `handleEnableWebcam` of the pose and estimator components: also a
      no-op when the browser has no `getUserMedia`. */
  function GuardedToggle(s: Session, mediaAvailable: bool): (r: Session)
    ensures r.running != s.running <==> s.loaded && mediaAvailable
    ensures r.(running := s.running) == s
  {
    if !s.loaded then s
    else if !mediaAvailable then s
    else s.(running := !s.running)
  }

  /** With media available the guarded toggle is the plain one. */
  lemma GuardedToggleWithMedia(s: Session)
    ensures GuardedToggle(s, true) == Toggle(s)
    ensures GuardedToggle(s, false) == s
  {
  }

  /** `enableWebcam` of the squat counter: when running, set `running` to
      false and stop the stream's tracks, but neither cancel a frame nor
      detach the stream; otherwise set `running`. A running session whose
      stream is not attached yet fails at the track lookup after the flag
      was already cleared, so nothing is stopped. */
  function SquatToggle(s: Session): (r: Outcome)
    ensures !s.loaded ==> r == Quiet(s)
    ensures s.loaded ==> r.session.running == !s.running
    ensures r.tracksStopped <==> s.loaded && s.running && s.attached
    ensures !r.scheduled && r.cancelled.None?
    ensures r.session.(running := s.running) == s
  {
    if !s.loaded then Quiet(s)
    else if s.running then Outcome(s.(running := false), false, None, s.attached)
    else Quiet(s.(running := true))
  }

  // ---------------------------------------------------------------------
  // Starting and stopping the stream
  // ---------------------------------------------------------------------

  /** `runStream` while running: the stream is attached (and the first
      frame is left to the video's `loadeddata` listener). */
  function Start(s: Session): (r: Outcome)
    ensures r.session.attached
    ensures r.session.(attached := s.attached) == s
    ensures !r.scheduled && r.cancelled.None? && !r.tracksStopped
  {
    Quiet(s.(attached := true))
  }

  /** The stop path of the upload tracker's and the trackers' effect (and
      the unreachable `else` of their `runStream`): only with a stream
      attached, stop its tracks, detach it, cancel the stored handle if
      there is one and clear it. */
  function Stop(s: Session): (r: Outcome)
    ensures !r.session.attached
    ensures r.tracksStopped <==> s.attached
    ensures s.attached ==> r.cancelled == s.pending && r.session.pending.None?
    ensures !s.attached ==> r == Quiet(s)
    ensures !r.scheduled
    ensures r.session.(attached := s.attached, pending := s.pending) == s
  {
    if !s.attached then Quiet(s)
    else Outcome(s.(attached := false, pending := None), false, s.pending, true)
  }

  /** A second stop does nothing. */
  lemma StopIdempotent(s: Session)
    ensures Stop(Stop(s).session) == Quiet(Stop(s).session)
  {
  }

  /** Without a stream nothing is cancelled, even a stored handle: the
      cancellation sits inside the `srcObject` check. */
  lemma StopWithoutStreamKeepsHandle(s: Session)
    requires !s.attached
    ensures Stop(s).session.pending == s.pending && Stop(s).cancelled.None?
  {
  }

  /** The effect on `[webcamRunning]` in the upload tracker and the trackers. */
  function StartStopEffect(s: Session): (r: Outcome)
    ensures s.running ==> r == Start(s)
    ensures !s.running ==> r == Stop(s)
    ensures r.session.attached == s.running
  {
    if s.running then Start(s) else Stop(s)
  }

  /** The effect in the framed tracker, the pose component and the
      estimator: it only ever starts, so turning off leaves the stream
      attached and its tracks running. */
  function StartOnlyEffect(s: Session): (r: Outcome)
    ensures s.running ==> r == Start(s)
    ensures !s.running ==> r == Quiet(s)
    ensures !r.tracksStopped && r.cancelled.None?
  {
    if s.running then Start(s) else Quiet(s)
  }

  /** The squat counter's way of stopping differs from the trackers' on a
      session with a stream and a pending frame: both stop the tracks, but
      only the trackers cancel the frame and detach the stream. */
  lemma SquatStopDiffersFromStop(s: Session)
    requires s.loaded && s.running && s.attached && s.pending.Some?
    ensures SquatToggle(s).tracksStopped && SquatToggle(s).cancelled.None?
    ensures SquatToggle(s).session.attached
    ensures var off := Toggle(s);
      StartStopEffect(off).tracksStopped && StartStopEffect(off).cancelled == s.pending
      && !StartStopEffect(off).session.attached
  {
  }

  // ---------------------------------------------------------------------
  // The end of a frame
  // ---------------------------------------------------------------------

  /** One frame of the upload tracker's and the trackers' `detectFrame`:
      a video without size cancels and clears the stored handle and ends
      the loop; otherwise the frame is processed and, while running, the
      next one is requested and its handle stored. When processing throws
      (`threw`), the rejected async frame never reaches the request: the
      loop ends with `running` still set and the old handle kept. */
  function StoredFrame(s: Session, sized: bool, threw: bool, next: Handle): (r: Outcome)
    ensures !sized ==> r.cancelled == s.pending && r.session.pending.None? && !r.scheduled
    ensures sized && threw ==> r == Quiet(s)
    ensures sized && !threw ==> r.scheduled == s.running && r.cancelled.None?
    ensures sized && !threw && s.running ==> r.session.pending == Some(next)
    ensures sized && !s.running ==> r.session.pending == s.pending
    ensures r.scheduled <==> sized && !threw && s.running
    ensures r.session.(pending := s.pending) == s
    ensures !r.tracksStopped
  {
    if !sized then Outcome(s.(pending := None), false, s.pending, false)
    else if threw then Quiet(s)
    else if s.running then Outcome(s.(pending := Some(next)), true, None, false)
    else Quiet(s)
  }

  /** One frame of the framed tracker, the pose component, the estimator
      and the squat counter: the next frame is requested while running and
      its handle is dropped, unless processing threw first. */
  function UnstoredFrame(s: Session, threw: bool): (r: Outcome)
    ensures r.scheduled <==> s.running && !threw
    ensures r.session == s && r.cancelled.None? && !r.tracksStopped
  {
    Outcome(s, s.running && !threw, None, false)
  }

  /** A frame as the loop sees it: whether the video had a size, and the
      handle the scheduler would return. */
  datatype Frame = Frame(sized: bool, next: Handle)

  /** The session after a run of frames with no toggle in between, and how
      many of them requested a successor. */
  datatype Run = Run(session: Session, requests: nat)

  /** The trackers' loop, whose frame processing cannot throw. */
  function RunFrames(s: Session, frames: seq<Frame>): (r: Run)
    ensures r.requests <= |frames|
    ensures r.session.(pending := s.pending) == s
    ensures !s.running ==> r.requests == 0
    ensures s.running && |frames| > 0 && (forall i :: 0 <= i < |frames| ==> frames[i].sized) ==> r.requests == |frames|
    ensures !s.running && s.pending.None? ==> r.session.pending.None?
    decreases |frames|
  {
    if |frames| == 0 then Run(s, 0)
    else
      var o := StoredFrame(s, frames[0].sized, false, frames[0].next);
      var rest := RunFrames(o.session, frames[1..]);
      Run(rest.session, rest.requests + (if o.scheduled then 1 else 0))
  }

  /** Once a running tracker is toggled off and its effect has run, the
      frames that still arrive request nothing and leave no handle behind. */
  lemma {:induction false} StoppedLoopStaysQuiet(s: Session, frames: seq<Frame>)
    requires s.loaded && s.running && s.attached
    ensures var off := StartStopEffect(Toggle(s)).session;
      RunFrames(off, frames).requests == 0 && RunFrames(off, frames).session.pending.None?
  {
    var off := StartStopEffect(Toggle(s)).session;
    assert !off.running && off.pending.None?;
  }

  /** A stopped loop's handle only ever gets cleared, never replaced. */
  lemma {:induction false} StoppedLoopOnlyClears(s: Session, frames: seq<Frame>)
    requires !s.running
    ensures RunFrames(s, frames).session.pending.None? || RunFrames(s, frames).session.pending == s.pending
    decreases |frames|
  {
    if |frames| > 0 {
      var o := StoredFrame(s, frames[0].sized, false, frames[0].next);
      StoppedLoopOnlyClears(o.session, frames[1..]);
    }
  }
}

=== FILE: lumbar_rotation.dfy ===
/** Lumbar rotation: the difference between the directions of the two
    shoulders seen from the mid-hip, normalised into a half-open interval of
    one turn. The reading is worked out in radians and converted to degrees
    at the end; since the truncating remainder commutes with multiplication
    by the positive factor 180/PI, the model normalises in degrees directly:
    `((d + PI) % (2 PI) - PI) * 180/PI == ((D + 180) % 360) - 180` where
    `D = d * 180/PI`. */
module LumbarRotation {
  import opened Geometry

  /** JavaScript's `Math.trunc`: rounds towards zero. */
  function Trunc(q: real): (k: int)
    ensures q >= 0.0 ==> k == q.Floor
    ensures q < 0.0 ==> k == -((-q).Floor)
    ensures Abs(k as real) <= Abs(q) < Abs(k as real) + 1.0
  {
    if q >= 0.0 then q.Floor else -((-q).Floor)
  }

  /** JavaScript's `a % 360`: the result takes the sign of `a`. */
  function TruncRem360(a: real): (r: real)
    ensures a >= 0.0 ==> 0.0 <= r < 360.0
    ensures a < 0.0 ==> -360.0 < r <= 0.0
    ensures ((a - r) / 360.0).Floor as real == (a - r) / 360.0
  {
    var k := Trunc(a / 360.0);
    a - 360.0 * k as real
  }

  /** A floored remainder by 360: always in [0, 360). */
  function FloorRem360(a: real): (r: real)
    ensures 0.0 <= r < 360.0
    ensures ((a - r) / 360.0).Floor as real == (a - r) / 360.0
  {
    var k := (a / 360.0).Floor;
    a - 360.0 * k as real
  }

  /** The normalisation as written: `((d + 180) % 360) - 180`. */
  function TruncNormalize(d: real): (r: real)
    ensures ((d - r) / 360.0).Floor as real == (d - r) / 360.0
  {
    TruncRem360(d + 180.0) - 180.0
  }

  /** The normalisation evidently intended: the result is in [-180, 180). */
  function FloorNormalize(d: real): (r: real)
    ensures -180.0 <= r < 180.0
    ensures ((d - r) / 360.0).Floor as real == (d - r) / 360.0
  {
    FloorRem360(d + 180.0) - 180.0
  }

  /** On a difference of two directions, the normalisation as written
      lands in [-180, 180) when the difference is at least -180, and leaves
      any smaller difference untouched. */
  lemma TruncNormalizeOnDifferences(d: real)
    requires -360.0 < d < 360.0
    ensures d >= -180.0 ==> TruncNormalize(d) == FloorNormalize(d)
    ensures d >= -180.0 ==> -180.0 <= TruncNormalize(d) < 180.0
    ensures d < -180.0 ==> TruncNormalize(d) == d
  {
    var a := d + 180.0;
    if a >= 0.0 {
      assert Trunc(a / 360.0) == (a / 360.0).Floor;
    } else {
      assert -0.5 < a / 360.0 < 0.0;
      assert Trunc(a / 360.0) == 0;
    }
  }

  /** The input that shows the difference: with the left shoulder's ray at
      170 degrees and the right shoulder's at -170, the raw difference is
      -340; the code reports -340 where adding one turn gives 20. */
  lemma TruncNormalizeEscapes()
    ensures TruncNormalize(-340.0) == -340.0
    ensures FloorNormalize(-340.0) == 20.0
  {
    assert Trunc(-160.0 / 360.0) == 0;
    assert (-160.0 / 360.0 + 0.0).Floor == -1;
  }

  /** The hip midpoint; `z` is not read. */
  function MidHip(leftHip: Landmark, rightHip: Landmark): Landmark
  {
    Landmark((leftHip.x + rightHip.x) / 2.0, (leftHip.y + rightHip.y) / 2.0, 0.0)
  }

  /** `rightAngle - leftAngle` in degrees, both rays out of the mid-hip. */
  function ShoulderSpread(t: Trig, leftShoulder: Landmark, rightShoulder: Landmark,
                          leftHip: Landmark, rightHip: Landmark): (d: real)
    requires Lawful(t)
    ensures -360.0 < d < 360.0
  {
    var mid := MidHip(leftHip, rightHip);
    RayAngle(t, mid, rightShoulder) - RayAngle(t, mid, leftShoulder)
  }

  predicate AllPresent4(a: Option<Landmark>, b: Option<Landmark>, c: Option<Landmark>, d: Option<Landmark>)
  {
    a.Some? && b.Some? && c.Some? && d.Some?
  }

  /** `calculateLumbarRotation(leftShoulder, rightShoulder, leftHip, rightHip)`
      as written, with the truncating remainder. */
  function LumbarRotationAsWritten(t: Trig, leftShoulder: Option<Landmark>, rightShoulder: Option<Landmark>,
                                   leftHip: Option<Landmark>, rightHip: Option<Landmark>): (r: Option<real>)
    requires Lawful(t)
    ensures r.Some? <==> AllPresent4(leftShoulder, rightShoulder, leftHip, rightHip)
    ensures r.Some? ==> -360.0 < r.value < 180.0
    ensures r.Some? ==>
      var d := ShoulderSpread(t, leftShoulder.value, rightShoulder.value, leftHip.value, rightHip.value);
      (r.value < -180.0 <==> d < -180.0)
  {
    if !AllPresent4(leftShoulder, rightShoulder, leftHip, rightHip) then None
    else
      var d := ShoulderSpread(t, leftShoulder.value, rightShoulder.value, leftHip.value, rightHip.value);
      TruncNormalizeOnDifferences(d);
      Some(TruncNormalize(d))
  }

  /** Lumbar rotation with the floored remainder: a value in [-180, 180)
      that differs from the raw spread by whole turns, and agrees with the
      code whenever the spread is at least -180. */
  function LumbarRotation(t: Trig, leftShoulder: Option<Landmark>, rightShoulder: Option<Landmark>,
                          leftHip: Option<Landmark>, rightHip: Option<Landmark>): (r: Option<real>)
    requires Lawful(t)
    ensures r.Some? <==> AllPresent4(leftShoulder, rightShoulder, leftHip, rightHip)
    ensures r.Some? ==> -180.0 <= r.value < 180.0
    ensures r.Some? ==>
      var d := ShoulderSpread(t, leftShoulder.value, rightShoulder.value, leftHip.value, rightHip.value);
      ((d - r.value) / 360.0).Floor as real == (d - r.value) / 360.0
  {
    if !AllPresent4(leftShoulder, rightShoulder, leftHip, rightHip) then None
    else
      var d := ShoulderSpread(t, leftShoulder.value, rightShoulder.value, leftHip.value, rightHip.value);
      Some(FloorNormalize(d))
  }

  /** The corrected reading agrees with the code exactly on spreads of at least -180 degrees. */
  lemma LumbarRotationAgreement(t: Trig, leftShoulder: Landmark, rightShoulder: Landmark,
                                leftHip: Landmark, rightHip: Landmark)
    requires Lawful(t)
    ensures var d := ShoulderSpread(t, leftShoulder, rightShoulder, leftHip, rightHip);
      var asWritten := LumbarRotationAsWritten(t, Some(leftShoulder), Some(rightShoulder), Some(leftHip), Some(rightHip));
      var corrected := LumbarRotation(t, Some(leftShoulder), Some(rightShoulder), Some(leftHip), Some(rightHip));
      (d >= -180.0 ==> asWritten == corrected)
      && (d < -180.0 ==> asWritten.value == d && corrected.value == d + 360.0)
  {
    var d := ShoulderSpread(t, leftShoulder, rightShoulder, leftHip, rightHip);
    TruncNormalizeOnDifferences(d);
    if d < -180.0 {
      FloorNormalizeShift(d);
    }
  }

  /** Below -180 one turn brings a spread into range. */
  lemma FloorNormalizeShift(d: real)
    requires -360.0 < d < -180.0
    ensures FloorNormalize(d) == d + 360.0
  {
    assert -1.0 <= (d + 180.0) / 360.0 < 0.0;
    assert ((d + 180.0) / 360.0).Floor == -1;
  }

  /** The hips are read only through their midpoint. */
  lemma LumbarRotationReadsMidHip(t: Trig, ls: Landmark, rs: Landmark,
                                  lh1: Landmark, rh1: Landmark, lh2: Landmark, rh2: Landmark)
    requires Lawful(t)
    requires MidHip(lh1, rh1) == MidHip(lh2, rh2)
    ensures LumbarRotation(t, Some(ls), Some(rs), Some(lh1), Some(rh1))
         == LumbarRotation(t, Some(ls), Some(rs), Some(lh2), Some(rh2))
    ensures LumbarRotationAsWritten(t, Some(ls), Some(rs), Some(lh1), Some(rh1))
         == LumbarRotationAsWritten(t, Some(ls), Some(rs), Some(lh2), Some(rh2))
  {
  }
}

=== FILE: pose_report.dfy ===
/** The joint-angle report the upload tracker computes on every webcam
    frame: every reading of the angle helpers, fed from fixed pose landmark
    indices. The readings are handed to a text helper that returns before
    drawing anything, and only the lumbar rotation is logged. The helpers
    are only called when the landmarks they need exist, but the shoulder and
    hip midpoints are computed first and unguarded, so a pose without
    landmarks 11, 12, 23 and 24 throws before any reading is computed. */
module PoseReport {
  import opened Geometry
  import opened JointAngles
  import opened LumbarRotation
  import Lifecycle
  import HandResolver

  /** The pose landmark indices the report reads, named as the report
      names them. In the detector's numbering 18 is the right pinky, 19 the
      left index finger and 21 the left thumb; the report's "left elbow"
      and "left wrist" are 14 and 16, the same landmarks as its right ones. */
  const Nose := 0
  const LeftEar := 7
  const LeftShoulder := 11
  const RightShoulder := 12
  const RightElbow := 14
  const RightWrist := 16
  const PinkyFinger := 18
  const IndexFinger := 19
  const RightIndex := 21
  const LeftHip := 23
  const RightHip := 24
  const LeftKnee := 25

  const ReadIndices: set<nat> := {Nose, LeftEar, LeftShoulder, RightShoulder, RightElbow, RightWrist,
                                  PinkyFinger, IndexFinger, RightIndex, LeftHip, RightHip, LeftKnee}

  /** Which way the head leans, from the nose against the two shoulders. */
  datatype Direction = Left | Right | Center

  /** The nested conditional: left of the left shoulder wins over right of
      the right shoulder; anything else is centred. */
  function NeckDirection(nose: Landmark, leftShoulder: Landmark, rightShoulder: Landmark): (d: Direction)
    ensures d == Left <==> nose.x < leftShoulder.x
    ensures d == Right <==> leftShoulder.x <= nose.x && rightShoulder.x < nose.x
    ensures d == Center <==> leftShoulder.x <= nose.x <= rightShoulder.x
  {
    if nose.x < leftShoulder.x then Left
    else if nose.x > rightShoulder.x then Right
    else Center
  }

  /** When the left shoulder appears to the right of the right shoulder, no
      nose position reads as centred. */
  lemma NeckDirectionNeverCentredWhenCrossed(nose: Landmark, leftShoulder: Landmark, rightShoulder: Landmark)
    requires rightShoulder.x < leftShoulder.x
    ensures NeckDirection(nose, leftShoulder, rightShoulder) != Center
  {
  }

  /** With the shoulders in order, the direction is symmetric: mirroring
      the three x coordinates and exchanging the shoulders swaps Left and
      Right, except on the boundary, where Left wins. */
  lemma NeckDirectionMirror(nose: Landmark, leftShoulder: Landmark, rightShoulder: Landmark)
    requires leftShoulder.x <= rightShoulder.x
    requires nose.x != rightShoulder.x
    ensures var m := (l: Landmark) => Landmark(-l.x, l.y, l.z);
      var d := NeckDirection(nose, leftShoulder, rightShoulder);
      var e := NeckDirection(m(nose), m(rightShoulder), m(leftShoulder));
      (d == Left <==> e == Right) && (d == Center <==> e == Center)
  {
  }

  /** The readings computed (and, for lumbar rotation, logged); `None`
      where the guard in front of a reading failed. */
  datatype Readings = Readings(
    neckFlexion: Option<real>, neckExtension: Option<real>,
    lumbarFlexion: Option<real>, lumbarExtension: Option<real>,
    wristFlexion: Option<real>, wristExtension: Option<real>,
    neckLateralBending: Option<real>, neckRotation: Option<real>, direction: Option<Direction>,
    ulnarDeviation: Option<real>, radialDeviation: Option<real>,
    pronation: Option<real>, supination: Option<real>,
    lumbarLateral: Option<real>, lumbarRotation: Option<real>)

  /** The three ways a call can end. */
  datatype Report = Skipped | Thrown | Computed(readings: Readings)

  /** The vertex-angle readings need their rays to have length: the cosine
      rule divides by them. */
  predicate Measurable(lms: seq<Landmark>)
  {
    && Nondegenerate(At(lms, LeftHip), At(lms, LeftShoulder), At(lms, LeftKnee))
    && Nondegenerate(At(lms, Nose), At(lms, LeftShoulder), At(lms, RightShoulder))
    && Nondegenerate(At(lms, IndexFinger), At(lms, PinkyFinger), At(lms, RightWrist))
    && Nondegenerate(At(lms, RightElbow), At(lms, RightWrist), At(lms, IndexFinger))
  }

  /** A pose whose midpoints can be formed. */
  predicate HasTrunk(lms: seq<Landmark>)
  {
    AllPresent4(At(lms, LeftShoulder), At(lms, RightShoulder), At(lms, LeftHip), At(lms, RightHip))
  }

  function Direct(lms: seq<Landmark>): Option<Direction>
  {
    if AllPresent(At(lms, Nose), At(lms, LeftShoulder), At(lms, RightShoulder))
    then Some(NeckDirection(lms[Nose], lms[LeftShoulder], lms[RightShoulder]))
    else None
  }

  /** `calculateAngles(landmarks, ctx)`: nothing without landmarks or a
      canvas context; a throw when the trunk is incomplete; otherwise every
      reading, all present except the two that need the left knee. */
  function CalculateAngles(t: Trig, landmarks: Option<seq<Landmark>>, hasContext: bool): (r: Report)
    requires Lawful(t)
    requires landmarks.Some? && hasContext && HasTrunk(landmarks.value) ==> Measurable(landmarks.value)
    ensures r.Skipped? <==> landmarks.None? || !hasContext
    ensures r.Thrown? <==> landmarks.Some? && hasContext && |landmarks.value| <= RightHip
    ensures r.Computed? ==>
      var g := r.readings;
      && g.neckFlexion.Some? && g.neckExtension.Some? && g.wristFlexion.Some? && g.wristExtension.Some?
      && g.neckLateralBending.Some? && g.neckRotation.Some? && g.direction.Some?
      && g.ulnarDeviation.Some? && g.radialDeviation.Some? && g.pronation.Some? && g.supination.Some?
      && g.lumbarLateral.Some? && g.lumbarRotation.Some?
      && (g.lumbarFlexion.Some? <==> |landmarks.value| > LeftKnee)
      && (g.lumbarExtension.Some? <==> |landmarks.value| > LeftKnee)
  {
    if landmarks.None? || !hasContext then Skipped
    else
      var lms := landmarks.value;
      if !HasTrunk(lms) then Thrown
      else
        var nose, ear, ls, rs := At(lms, Nose), At(lms, LeftEar), At(lms, LeftShoulder), At(lms, RightShoulder);
        var lh, rh, lk := At(lms, LeftHip), At(lms, RightHip), At(lms, LeftKnee);
        var elbow, wrist, rIndex := At(lms, RightElbow), At(lms, RightWrist), At(lms, RightIndex);
        var index, pinky := At(lms, IndexFinger), At(lms, PinkyFinger);
        Computed(Readings(
          NeckFlexion(t, ear, ls, nose), NeckExtension(t, ear, ls, nose),
          LumbarFlexion(t, lh, ls, lk), LumbarExtension(t, lh, ls, lk),
          WristFlexion(t, elbow, wrist, rIndex), WristExtension(t, elbow, wrist, rIndex),
          NeckLateralBending(t, nose, ls, rs), NeckRotation(t, nose, ls, rs), Direct(lms),
          UlnarDeviation(t, index, pinky, wrist), RadialDeviation(t, index, pinky, wrist),
          Pronation(t, elbow, wrist, index), Supination(t, elbow, wrist, index),
          LumbarLateral(t, nose, lh, rh, ls),
          LumbarRotationAsWritten(t, ls, rs, lh, rh)))
  }

  /** The report comes in pairs that always agree: each "opposite" reading
      is the same formula as its partner, and of wrist flexion and
      extension at most one is non-zero. */
  lemma ReportPairs(t: Trig, landmarks: Option<seq<Landmark>>, hasContext: bool)
    requires Lawful(t)
    requires landmarks.Some? && hasContext && HasTrunk(landmarks.value) ==> Measurable(landmarks.value)
    ensures var r := CalculateAngles(t, landmarks, hasContext);
      r.Computed? ==>
        && r.readings.radialDeviation == r.readings.ulnarDeviation
        && r.readings.supination == r.readings.pronation
        && r.readings.neckLateralBending == r.readings.neckRotation
        && r.readings.lumbarExtension == r.readings.lumbarFlexion
        && (r.readings.wristFlexion.value == 0.0 || r.readings.wristExtension.value == 0.0)
  {
    var r := CalculateAngles(t, landmarks, hasContext);
    if r.Computed? {
      var lms := landmarks.value;
      WristFlexionExtensionExclusive(t, At(lms, RightElbow), At(lms, RightWrist), At(lms, RightIndex));
    }
  }

  /** Every reading lies in its range: the right-angle and vertical
      readings in [0, 90], lumbar flexion in [0, 180] and the logged lumbar
      rotation in (-360, 180), since the truncating normalisation lets
      spreads below -180 through. */
  lemma ReportRanges(t: Trig, landmarks: Option<seq<Landmark>>, hasContext: bool)
    requires Lawful(t)
    requires landmarks.Some? && hasContext && HasTrunk(landmarks.value) ==> Measurable(landmarks.value)
    ensures var r := CalculateAngles(t, landmarks, hasContext);
      r.Computed? ==>
        var g := r.readings;
        && 0.0 <= g.neckFlexion.value <= 90.0 && 0.0 <= g.neckExtension.value <= 90.0
        && 0.0 <= g.wristFlexion.value <= 90.0 && 0.0 <= g.wristExtension.value <= 90.0
        && 0.0 <= g.neckRotation.value <= 90.0 && 0.0 <= g.ulnarDeviation.value <= 90.0
        && 0.0 <= g.pronation.value <= 90.0 && 0.0 <= g.lumbarLateral.value <= 90.0
        && (g.lumbarFlexion.Some? ==> 0.0 <= g.lumbarFlexion.value <= 180.0)
        && -360.0 < g.lumbarRotation.value < 180.0
  {
  }

  /** The logged lumbar rotation is the corrected one whenever it is at
      least -180, and one turn below it otherwise. */
  lemma ReportRotationAgainstCorrected(t: Trig, lms: seq<Landmark>, hasContext: bool)
    requires Lawful(t)
    requires hasContext && HasTrunk(lms) ==> Measurable(lms)
    ensures var r := CalculateAngles(t, Some(lms), hasContext);
      r.Computed? ==>
        var logged := r.readings.lumbarRotation.value;
        var corrected := LumbarRotation.LumbarRotation(t, Some(lms[LeftShoulder]), Some(lms[RightShoulder]),
                                                       Some(lms[LeftHip]), Some(lms[RightHip])).value;
        (logged >= -180.0 ==> logged == corrected) && (logged < -180.0 ==> corrected == logged + 360.0)
  {
    if hasContext && HasTrunk(lms) {
      LumbarRotationAgreement(t, lms[LeftShoulder], lms[RightShoulder], lms[LeftHip], lms[RightHip]);
    }
  }

  /** The report reads only the twelve landmarks in `ReadIndices`: in
      particular the "left" elbow and wrist it uses for pronation and ulnar
      deviation are the right ones (14 and 16), and landmarks 13 and 15 are
      never consulted. */
  lemma ReportReadsOnly(t: Trig, a: seq<Landmark>, b: seq<Landmark>, hasContext: bool)
    requires Lawful(t)
    requires |a| == |b|
    requires forall k :: k in ReadIndices && k < |a| ==> a[k] == b[k]
    requires hasContext && HasTrunk(a) ==> Measurable(a)
    ensures hasContext && HasTrunk(b) ==> Measurable(b)
    ensures CalculateAngles(t, Some(a), hasContext) == CalculateAngles(t, Some(b), hasContext)
  {
    forall k | k in ReadIndices
      ensures At(a, k) == At(b, k)
    {
    }
  }

  /** A pose of the detector's 33 landmarks always gets past the midpoints
      to a full report, with every reading present. */
  lemma FullPoseIsComputed(t: Trig, lms: seq<Landmark>)
    requires Lawful(t)
    requires |lms| == 33
    ensures Measurable(lms) ==> CalculateAngles(t, Some(lms), true).Computed?
    ensures Measurable(lms) ==> CalculateAngles(t, Some(lms), true).readings.lumbarFlexion.Some?
  {
  }

  /** The analysis part of the upload tracker's frame: the hand loop and
      the report run only when both detectors found something, and the
      report is computed for the first pose. */
  datatype UploadView = UploadView(hands: HandResolver.HandFrameResult, report: Option<Report>)

  function UploadFrame(t: Trig, poses: seq<seq<Landmark>>, hands: seq<seq<Landmark>>, d: HandResolver.Display): (v: UploadView)
    requires Lawful(t)
    requires |poses| > 0 && |hands| > 0 ==> |poses[0]| > 16
    requires |poses| > 0 ==> forall k :: 0 <= k < |hands| ==> |hands[k]| > 8
    requires |poses| > 0 && |hands| > 0 && HasTrunk(poses[0]) ==> Measurable(poses[0])
    ensures v.report.Some? <==> |poses| > 0 && |hands| > 0
    ensures v.report.None? ==> v.hands.readings == [] && v.hands.display == d
    ensures v.report.Some? ==> (v.report.value.Computed? <==> |poses[0]| > RightHip)
  {
    var h := HandResolver.HandFrame(t, poses, hands, d);
    if |poses| == 0 || |hands| == 0 then UploadView(h, None)
    else UploadView(h, Some(CalculateAngles(t, Some(poses[0]), true)))
  }

  /** A detected hand with a first pose of fewer than 25 landmarks makes
      `calculateAngles` throw, so the frame never reaches its request: the
      loop ends while running, with the old handle still stored. */
  lemma ShortPoseEndsUploadLoop(t: Trig, poses: seq<seq<Landmark>>, hands: seq<seq<Landmark>>,
                                d: HandResolver.Display, s: Lifecycle.Session, next: Lifecycle.Handle)
    requires Lawful(t)
    requires |poses| > 0 && |hands| > 0 && 16 < |poses[0]| <= RightHip
    requires forall k :: 0 <= k < |hands| ==> |hands[k]| > 8
    ensures var threw := UploadFrame(t, poses, hands, d).report == Some(Thrown);
      threw && Lifecycle.StoredFrame(s, true, threw, next) == Lifecycle.Quiet(s)
  {
  }
}

=== FILE: skeleton_colors.dfy ===
/** The per-landmark colour table, and the lookup that colours pose
    landmarks by the POSITION of a key in that table rather than by the
    landmark's name. */
module SkeletonColors {

  datatype Rgb = Rgb(r: nat, g: nat, b: nat)

  /** The fallback `'rgb(255, 255, 255)'`. */
  const White := Rgb(255, 255, 255)

  /** The keys of `skeletonColors`. */
  datatype Key
    = Nose | Neck | TopOfTheHead | Chin | RightElbow | LeftElbow | RightWrist | LeftWrist
    | LeftShoulder | RightShoulder | LeftHip | RightHip | LeftKnee | RightKnee
    | LeftAnkle | RightAnkle | LeftEye | RightEye | LeftEar | RightEar | LeftThumb
    | RightThumb | LeftFinger | RightFinger | LeftBigtoe | RightBigtoe | LeftHeel
    | RightHeel | Back1 | Back2 | Back3 | Back4 | Back5 | Front1 | Front2 | Front3
    | Front4 | Front5 | LeftShoulderHand | RightShoulderHand | LeftShoulderNeck
    | RightShoulderNeck | LeftUnderEar | RightUnderEar | NeckTop | BackNeckTop

  /** The colour stored under each key. */
  function Color(k: Key): (c: Rgb)
    ensures c != White
  {
    match k
      case Nose => Rgb(255, 0, 0)
      case Neck => Rgb(255, 85, 0)
      case TopOfTheHead => Rgb(255, 85, 0)
      case Chin => Rgb(255, 85, 0)
      case RightElbow => Rgb(255, 255, 0)
      case LeftElbow => Rgb(0, 255, 0)
      case RightWrist => Rgb(170, 255, 0)
      case LeftWrist => Rgb(0, 255, 85)
      case LeftShoulder => Rgb(85, 255, 0)
      case RightShoulder => Rgb(255, 170, 0)
      case LeftHip => Rgb(0, 85, 255)
      case RightHip => Rgb(0, 255, 170)
      case LeftKnee => Rgb(0, 0, 255)
      case RightKnee => Rgb(0, 255, 255)
      case LeftAnkle => Rgb(85, 0, 255)
      case RightAnkle => Rgb(0, 170, 255)
      case LeftEye => Rgb(255, 0, 255)
      case RightEye => Rgb(170, 0, 255)
      case LeftEar => Rgb(255, 0, 85)
      case RightEar => Rgb(255, 0, 170)
      case LeftThumb => Rgb(0, 255, 0)
      case RightThumb => Rgb(0, 0, 255)
      case LeftFinger => Rgb(0, 255, 0)
      case RightFinger => Rgb(0, 0, 255)
      case LeftBigtoe => Rgb(85, 0, 255)
      case RightBigtoe => Rgb(85, 0, 255)
      case LeftHeel => Rgb(85, 0, 255)
      case RightHeel => Rgb(85, 0, 255)
      case Back1 => Rgb(255, 0, 0)
      case Back2 => Rgb(255, 0, 0)
      case Back3 => Rgb(255, 0, 0)
      case Back4 => Rgb(255, 0, 0)
      case Back5 => Rgb(255, 0, 0)
      case Front1 => Rgb(70, 130, 180)
      case Front2 => Rgb(70, 130, 180)
      case Front3 => Rgb(70, 130, 180)
      case Front4 => Rgb(70, 130, 180)
      case Front5 => Rgb(70, 130, 180)
      case LeftShoulderHand => Rgb(0, 255, 0)
      case RightShoulderHand => Rgb(0, 0, 255)
      case LeftShoulderNeck => Rgb(0, 255, 0)
      case RightShoulderNeck => Rgb(0, 0, 255)
      case LeftUnderEar => Rgb(0, 255, 0)
      case RightUnderEar => Rgb(0, 0, 255)
      case NeckTop => Rgb(255, 0, 0)
      case BackNeckTop => Rgb(200, 128, 128)
  }

  /** `Object.keys(skeletonColors)`: the keys in declaration order. */
  const Keys: seq<Key> :=
    [Nose, Neck, TopOfTheHead, Chin, RightElbow, LeftElbow, RightWrist, LeftWrist,
     LeftShoulder, RightShoulder, LeftHip, RightHip, LeftKnee, RightKnee, LeftAnkle,
     RightAnkle, LeftEye, RightEye, LeftEar, RightEar, LeftThumb, RightThumb, LeftFinger,
     RightFinger, LeftBigtoe, RightBigtoe, LeftHeel, RightHeel, Back1, Back2, Back3,
     Back4, Back5, Front1, Front2, Front3, Front4, Front5, LeftShoulderHand,
     RightShoulderHand, LeftShoulderNeck, RightShoulderNeck, LeftUnderEar, RightUnderEar,
     NeckTop, BackNeckTop]

  /** `skeletonColors[Object.keys(skeletonColors)[index]] || 'rgb(255, 255, 255)'`:
      the colour of the key at position `index`, white past the last key. */
  function ColorAt(index: nat): (c: Rgb)
    ensures index < |Keys| ==> c == Color(Keys[index])
    ensures c == White <==> index >= |Keys|
  {
    if index < |Keys| then Color(Keys[index]) else White
  }

  /** Every one of the 33 pose landmarks (indices 0 to 32) finds a colour. */
  lemma PoseLandmarksAreColoured(index: nat)
    requires index < 33
    ensures ColorAt(index) != White
    ensures ColorAt(index) == Color(Keys[index])
  {
    assert |Keys| == 46;
  }

  /** The lookup goes by position, not by name: pose landmark 11 (the left
      shoulder) is drawn in the colour of the twelfth key, the right hip. */
  lemma ColourIsPositional()
    ensures ColorAt(11) == Color(RightHip)
    ensures ColorAt(11) != Color(LeftShoulder)
  {
  }
}

=== FILE: squat_counter.dfy ===
/** The squat counter: each processed frame whose first pose has its hips
    (on average) lower in the image than its knees adds one to the count;
    image y grows downwards, so "lower" is a larger y. */
module SquatCounter {
  import opened Geometry

  const LeftHip := 23
  const RightHip := 24
  const LeftKnee := 25
  const RightKnee := 26

  /** The four landmarks exist and the mean hip y exceeds the mean knee y. */
  predicate HipsBelowKnees(lms: seq<Landmark>)
  {
    && |lms| > RightKnee
    && (lms[LeftHip].y + lms[RightHip].y) / 2.0 > (lms[LeftKnee].y + lms[RightKnee].y) / 2.0
  }

  /** `countSquats(landmarks)` applied to the count: nothing without a pose
      or without all four of landmarks 23 to 26; otherwise one more when the
      hips are below the knees. */
  function CountSquats(count: nat, landmarks: Option<seq<Landmark>>): (r: nat)
    ensures r == count + 1 <==> landmarks.Some? && HipsBelowKnees(landmarks.value)
    ensures r == count <==> !(landmarks.Some? && HipsBelowKnees(landmarks.value))
  {
    if landmarks.None? then count
    else
      var lms := landmarks.value;
      if |lms| <= RightKnee then count
      else
        var hipAvgY := (lms[LeftHip].y + lms[RightHip].y) / 2.0;
        var kneeAvgY := (lms[LeftKnee].y + lms[RightKnee].y) / 2.0;
        if hipAvgY > kneeAvgY then count + 1 else count
  }

  /** The comparison of means is a comparison of sums. */
  lemma HipsBelowKneesBySums(lms: seq<Landmark>)
    requires |lms| > RightKnee
    ensures HipsBelowKnees(lms) <==> lms[LeftHip].y + lms[RightHip].y > lms[LeftKnee].y + lms[RightKnee].y
  {
  }

  /** The counter's state: the count and the `isUserInFrame` flag. */
  datatype Counter = Counter(count: nat, userInFrame: bool)

  const InitialCounter := Counter(0, false)

  /** What one `predictWebcam` call does: nothing while stopped (and no
      next frame); otherwise the detection result decides `isUserInFrame`
      (any landmark list, even an empty one, counts as in frame), the first
      pose is counted, and the next frame is requested. */
  datatype Tick = Tick(counter: Counter, scheduled: bool)

  function SquatFrame(c: Counter, running: bool, landmarks: Option<seq<seq<Landmark>>>): (r: Tick)
    ensures r.scheduled <==> running
    ensures !running ==> r.counter == c
    ensures running ==> (r.counter.userInFrame <==> landmarks.Some?)
    ensures c.count <= r.counter.count <= c.count + 1
    ensures r.counter.count == c.count + 1
        <==> running && landmarks.Some? && |landmarks.value| > 0 && HipsBelowKnees(landmarks.value[0])
  {
    if !running then Tick(c, false)
    else if landmarks.None? then Tick(c.(userInFrame := false), true)
    else
      var first := if |landmarks.value| > 0 then Some(landmarks.value[0]) else None;
      Tick(Counter(CountSquats(c.count, first), true), true)
  }

  /** A detection with an empty landmark list reads as in frame and counts
      nothing. */
  lemma EmptyDetectionIsInFrame(c: Counter)
    ensures SquatFrame(c, true, Some([])).counter == c.(userInFrame := true)
  {
  }

  /** The count after a run of frames while running. */
  function RunSquats(c: Counter, frames: seq<Option<seq<seq<Landmark>>>>): (r: Counter)
    ensures c.count <= r.count <= c.count + |frames|
    decreases |frames|
  {
    if |frames| == 0 then c
    else RunSquats(SquatFrame(c, true, frames[0]).counter, frames[1..])
  }

  /** No hysteresis: holding the squat for n frames counts n squats. */
  lemma {:induction false} HeldSquatCountsEveryFrame(c: Counter, frames: seq<Option<seq<seq<Landmark>>>>)
    requires forall i :: 0 <= i < |frames| ==>
      frames[i].Some? && |frames[i].value| > 0 && HipsBelowKnees(frames[i].value[0])
    ensures RunSquats(c, frames).count == c.count + |frames|
    decreases |frames|
  {
    if |frames| > 0 {
      HeldSquatCountsEveryFrame(SquatFrame(c, true, frames[0]).counter, frames[1..]);
    }
  }

  /** Standing up never lowers the count: frames without a squat leave it
      where it was. */
  lemma {:induction false} StandingKeepsCount(c: Counter, frames: seq<Option<seq<seq<Landmark>>>>)
    requires forall i :: 0 <= i < |frames| ==>
      !(frames[i].Some? && |frames[i].value| > 0 && HipsBelowKnees(frames[i].value[0]))
    ensures RunSquats(c, frames).count == c.count
    decreases |frames|
  {
    if |frames| > 0 {
      StandingKeepsCount(SquatFrame(c, true, frames[0]).counter, frames[1..]);
    }
  }
}
